=== FILE: README.md ===
# Apple Music → Navidrome migration: the decision cores

Two Python scripts move a user's listening history from an Apple Music
(iTunes) library export into a Navidrome database. Most of their code reads and
writes files and SQLite. This project models the parts that make decisions,
as pure Dafny functions, and proves what they promise.

- **Split-album fixer** (`fix_splits.py`). Navidrome splits one album in two
  when its tracks disagree on release date or MusicBrainz album id.
  `group_by_album` groups the tracks by their exact (album, album artist) key.
  `analyse` then classifies each group as `mixed`, `mbz_multi`, `mbz_single`
  or `date` and proposes tag updates: strip the id, fill in the one agreed
  date, force the majority date, or clear every date when there is no
  majority (module `Splits`).
- **Importer** (`migrate.py`):
  - `convert_rating`, the 0–100 to 0–5 star banding (`Ratings`);
  - the filters of the library parse and the explicit album-rating vote
    (`Library`);
  - the four-step matching cascade: exact path variant, case-insensitive
    path, exact normalised tags, fuzzy title prefix (`Matching`);
  - the annotation upserts, which never lower an existing play count or
    rating (`Annotations`);
  - the track loop with its unmatched report, the date-added pass and the
    ordering of the report (`Migration`);
  - the playlist rebuild with dense positions 0..k-1 (`Playlists`).

Shared pieces:
- `Common` models `Counter.most_common(1)` as `Mode`: the highest count, and
  on a tie the value seen first.
- `AssocList` models a Python dict as its item sequence, in insertion order.

The database is a `map` keyed by (user, item id, item type), or a sequence of
rows. The string normalisers are uninterpreted function parameters. These
are Unicode NFC/NFD, lower-casing, percent quoting and the `feat.` rewrites.

Consequences of the code that a reader may not expect:

- `group_by_album` keys groups by the exact album and album-artist strings.
  Only the SQL loader (fix_splits.py:62-82) lower-cases them. It is not
  modelled.
- `convert_rating` maps the library's star steps 20/40/60/80/100 to 2/3/4/5/5
  stars, because each band starts at its step (`Ratings.ConvertRatingOfStarSteps`).
- A track with an empty title fuzzily matches any media file of the same
  artist and album. The empty string is a prefix of every title
  (`Matching.EmptyTitleMatchesAlbum`).
- Playlists list only tracks that have plays or a rating (see Findings).

## Model

| member | source | states |
|---|---|---|
| Splits.GroupByAlbum | fix_splits.py:102-108 | The groups partition the input: one group per key, holding exactly the tracks with that key in input order; the sizes add up to the input length. |
| Splits.Analyse | fix_splits.py:115-192 | `mixed` and `mbz_multi` propose no updates; every update names a track of the group; id strips occur exactly in the `mbz_single` case. |
| Splits.Classification | fix_splits.py:126-161 | The cause follows the tracks: two ids and two dates (the empty date counts) give `mixed`; two ids and one date give `mbz_multi`; one id that only some tracks carry gives `mbz_single`; everything else is a `date` case. |
| Splits.FallsToDates | fix_splits.py:134-157 | Without an id conflict, `analyse` applies the release-date rules. |
| Splits.MbzSingleStripsHolders | fix_splits.py:146-152 | With one id that only some tracks carry, the updates strip exactly the tracks carrying it, in group order. |
| Splits.NoDatesNothingToDo | fix_splits.py:154-161 | With no id conflict and no dated track, the result is `date` with no updates, including when all tracks share one id. |
| Splits.SingleDateFills | fix_splits.py:163-173 | When all dated tracks agree, exactly the undated tracks get that date, no track already holding it is touched. A track ends with the date when its write lands and keeps its own otherwise; once every write lands the whole group shares it. |
| Splits.MajorityForces | fix_splits.py:175-185 | A date held by more than half of all tracks (undated ones counted) is set on exactly the tracks differing from it, whatever the tie-break. A track ends with it when its write lands and keeps its own otherwise; once every write lands all tracks share it. |
| Splits.MajorityRule | fix_splits.py:175-185 | A strict-majority date is the one the date rules force, whichever value `Counter` would pick on a tie. |
| Splits.NoConsensusClears | fix_splits.py:186-192 | With two different dates and no majority, exactly the dated tracks are cleared. A track whose write lands ends undated and any other keeps its date; once every write lands no date is left. |
| Splits.NoConsensusRule | fix_splits.py:176-192 | When no date has a majority, the date rules clear every dated track. |
| Splits.DateRule | fix_splits.py:154-192 | The date rules always report the `date` cause, and every update they propose sets a date, names a track of the group and changes that track's date. The single, majority and no-consensus rows pin each branch. |
| Splits.DateAfter | fix_splits.py:373-392 | A track that no landed update names keeps its date; otherwise it ends with the date of some landed update naming it. An update lands only on `--apply`, for a file that exists, when `write_date_tag` succeeds (fix_splits.py:266-274, 382-388). |
| Splits.DateAfterLastWins | fix_splits.py:375-388 | The updates are written in turn, so the last landed date update naming a track decides its date. |
| Splits.DryRunKeepsDates | fix_splits.py:335-341 | Without `--apply` nothing is written, so every track keeps its date. |
| Splits.SettleTo | fix_splits.py:375-392 | When the updates all set one value and cover every track not already holding it, a track ends with that value exactly when its update lands, and keeps its date otherwise. |
| Splits.DateAfterUniform | fix_splits.py:169-189 | When every update sets the same value, a track ends up with that value exactly when an update names it and lands. |
| Common.Mode | fix_splits.py:176-177 | `most_common(1)` returns a value counted at least as often as any other, and among the values tied for most, the one met first. |
| Common.MajorityIsMode | fix_splits.py:179 | A value held by more than half the sequence is the one `most_common` returns. |
| Common.NoMajorityAnywhere | fix_splits.py:179-189 | If the most common value has no majority, no value has one. |
| Ratings.ConvertRating | migrate.py:234-246 | Ratings band to 0..5 stars; zero stars exactly for a rating of zero or less, five exactly from 80 up. |
| Ratings.ConvertRatingMonotone | migrate.py:234-246 | A higher legacy rating never gives fewer stars. |
| Ratings.ConvertRatingBands | migrate.py:236-245 | For positive ratings, stars are one more than the rating's number of whole 20-point steps, capped at five. |
| Ratings.ConvertRatingOfStarSteps | migrate.py:236-245 | The library's n-star rating (20·n) becomes n+1 stars, except that five stays five. |
| Annotations.UpsertTrack | migrate.py:418-437 | Only the track's row changes. An existing row keeps the larger play count and rating. A missing row takes the incoming values. Either way the row is starred exactly when its rating or play count is positive. |
| Annotations.UpsertTrackNeverDecreases | migrate.py:418-420 | The merge never lowers an existing play count or rating, and keeps at least the incoming values. |
| Annotations.UpsertTrackIdempotent | migrate.py:418-437 | Importing the same statistics twice leaves the table as importing them once. |
| Annotations.UpsertTrackExample | migrate.py:418-428 | An existing row (10 plays, 3 stars) merged with 5 plays and a rating of 60 becomes 10 plays, 4 stars, starred. |
| Annotations.UpsertAggregate | migrate.py:491-508 | Only the album's or artist's row changes. An existing row keeps the larger totals and a consistent starred flag. A new row takes the aggregate, starred when any track is or when plays are positive. |
| Annotations.AlbumRating | migrate.py:474-481 | An explicit rating for the normalised key gives 0..5 converted stars; without one the averaged rating is used. |
| Annotations.ExplicitAlbumRatingOverrides | migrate.py:475-481 | With an explicit rating the track average has no influence. |
| Annotations.UpsertAggregates | migrate.py:473-508 | The batch upsert adds exactly the rows' keys to the table. |
| Annotations.UpsertAggregatesOthers | migrate.py:473-508 | Rows whose key no aggregate names are untouched. |
| Annotations.UpsertAggregatesMonotone | migrate.py:491-501 | Existing counters never drop over a batch. |
| Annotations.UpsertAggregatesCover | migrate.py:491-508 | Every aggregate's key ends with at least its plays and rating, whatever later rows for that key bring. |
| Annotations.AlbumRows | migrate.py:473-481 | One row per album, keyed by the user and album id. The rating is the converted explicit rating when the normalised (album, album artist) key has one, else the average. |
| Annotations.AlbumAnnotationsOnlyAlbums | migrate.py:453-508 | The album pass never touches track or artist annotations. |
| Normalize.Field | migrate.py:308-312 | An empty field normalises to the empty string. |
| Normalize.Title | migrate.py:314-330 | An empty title normalises to the empty string. |
| Normalize.PathVariants | migrate.py:268-286 | The variant list starts with the raw path and then the four quoting variants, and holds between 5 and 20 entries. |
| Normalize.AppendNew | migrate.py:276-284 | Appending the new normal forms keeps the existing variants as a prefix and adds at most one per element. |
| Normalize.AppendNewCovers | migrate.py:276-284 | The normal form of every element ends up in the list. |
| Normalize.AppendNewOnlyNew | migrate.py:276-284 | Each appended entry is the normal form of some element and was not already in the list. |
| Normalize.PathVariantsNormalForms | migrate.py:276-284 | The NFC and NFD forms of each of the five base variants are among the variants. |
| Library.RelativePath | migrate.py:96-108 | A path is produced exactly for a track with a Location whose decoded path starts with a non-empty music prefix; it is the decoded path minus that prefix. |
| Library.ParseTracks | migrate.py:96-131 | Both parsed dictionaries have distinct keys. |
| Library.ParseTracksData | migrate.py:96-131 | At each relative path, the parsed data holds the statistics of the last in-prefix track there with plays or a rating. At any other path it holds nothing. |
| Library.LastStatsAt | migrate.py:110-131 | Stored statistics exist exactly for paths of tracks with plays or a rating, and are always starred. |
| Library.ParseTracksIdMap | migrate.py:104-117 | The id map sends every in-prefix track's id to its relative path, whether or not the track has statistics. |
| Library.LastPathOf | migrate.py:104-117 | An id is mapped exactly when some in-prefix track carries it. |
| Library.TrackIds | migrate.py:169 | A playlist keeps exactly its truthy track ids; items without an id or with id 0 are dropped. |
| Library.TrackIdsAppend | migrate.py:169 | The kept ids keep item order, which becomes the playlist positions. |
| Library.ParsePlaylists | migrate.py:143-174 | The kept playlists are exactly the non-smart, non-distinguished, non-system, non-empty ones, each with its truthy track ids. |
| Library.ParsePlaylistsAppend | migrate.py:150-174 | Filtering keeps source order. |
| Library.ParsePlaylistsClean | migrate.py:147-169 | No kept playlist has a system name or a falsy track id. |
| Library.VotesFor | migrate.py:192-204 | The votes for a key are exactly the album ratings of the tracks that vote for that key; none is zero, and a voted key has at least one. |
| Library.VotesForAppend | migrate.py:192-204 | Votes are collected in library order, one per voting track, so the counts are the tracks' own. |
| Library.ExplicitAlbumRatings | migrate.py:179-207 | Ratings are recorded exactly for album keys with a vote. Each is non-zero and a most frequent vote for its key. |
| Library.MajorityVoteWins | migrate.py:206-207 | A rating held by more than half of an album's votes is the one recorded. |
| AssocList.Put | migrate.py:120 | Assigning a key keeps the order of the other items, moves no key, and appends a new key at the end. |
| AssocList.GetPut | migrate.py:120 | Reading back after an assignment sees the new value for that key and the old one elsewhere. |
| AssocList.FromPairsGet | migrate.py:117-120 | A dictionary built by assignments holds the value assigned last to each key. |
| Matching.PathStrategyExact | migrate.py:356-361 | The exact-path step finds an id exactly when some media file lies at a path variant, and the id is such a file's. |
| Matching.CaselessStrategyExact | migrate.py:363-369 | The case-insensitive step finds an id exactly when some media file's folded path equals a folded variant, and the id is such a file's. |
| Matching.MetadataStrategyExact | migrate.py:371-379 | The exact-tag step finds an id exactly when some media file has the same normalised tags, and the id is such a file's. |
| Matching.FuzzyStrategyExact | migrate.py:381-389 | The fuzzy step finds an id exactly when some media file fits: same artist and album, and one title a prefix of the other. |
| Matching.MatchSound | migrate.py:349-389 | Every match names a media file justifying the strategy it reports. |
| Matching.MatchTrack | migrate.py:349-389 | The cascade reports an exact-path match exactly when some path variant is a media file's path. Its order and results are stated by `MatchTrackVia` and `MatchTrackNone`. |
| Matching.CaselessIndex | migrate.py:288-293 | The case-insensitive index has distinct keys, and each entry is a path-table entry keyed by its folded path. |
| Matching.CaselessHas | migrate.py:288-293 | Every media file's folded path is a key of the case-insensitive index. |
| Matching.MetadataIndex | migrate.py:295-306 | The metadata index has distinct keys, and each entry is some media file's normalised tags with its id. |
| Matching.MetadataHas | migrate.py:295-306 | Every media file's normalised tags are a key of the metadata index. |
| Matching.MatchTrackVia | migrate.py:354-389 | A match reports the first strategy, in the order path, caseless path, metadata, fuzzy metadata, that answered: every earlier strategy came back empty, and the id is the reporting strategy's own answer. |
| Matching.MatchTrackNone | migrate.py:354-391 | A track is unmatched exactly when all four strategies come back empty. |
| Matching.UnmatchedExactly | migrate.py:354-400 | A track is unmatched exactly when no media file's path folds like a variant and none fits its tags. |
| Matching.PathFirst | migrate.py:356-363 | A media file at any path variant makes the match an exact-path one. |
| Matching.RawPathWins | migrate.py:269 | A media file at the raw path is matched by it, with the id of the last row at that path. |
| Matching.PathIndexGet | migrate.py:340 | The path table reads back the id of the last row at each path. |
| Matching.EmptyTitleMatchesAlbum | migrate.py:381-389 | A track with no title matches any media file of the same artist and album. |
| Migration.MigrateTracks | migrate.py:349-438 | Every entry counts once as matched or unmatched, and every match as an insert or an update. Only the user's track annotations are added or changed. |
| Migration.MigrateTracksMonotone | migrate.py:418-428 | The track pass never lowers an existing annotation. |
| Migration.MigrateTracksCovers | migrate.py:405-437 | A matched entry's annotation ends with at least the entry's plays and converted rating. |
| Migration.MigrateTracksStarred | migrate.py:418-437 | Every annotation the pass writes is starred exactly when its counters are positive. |
| Migration.MigrateTracksUnmatched | migrate.py:391-400 | The report lists exactly the entries no strategy matched, in order. |
| Migration.UnmatchedIn | migrate.py:391-400 | An entry is in the reference report exactly when it is unmatched. |
| Migration.UnmatchedReportExact | migrate.py:354-400 | With the importer's cascade, a track is reported exactly when no media file's path folds like its variants and none fits its tags. |
| Migration.MigrateTracksKeys | migrate.py:405-437 | Every new annotation belongs to a file some entry matched. |
| Migration.MigrateTracksPaths | migrate.py:405-406 | The path map holds a legacy path exactly when an entry there matched, naming the first such match. |
| Migration.FirstMatchAt | migrate.py:405-406 | The reference path map has a path exactly when an entry there matched. |
| Migration.DateAddedUpdates | migrate.py:564-615 | A date-added update is made exactly for an entry with a date whose cascade finds a non-empty id. |
| Migration.DateAddedUpdatesAppend | migrate.py:564-615 | The updates follow the data's order, so when two entries resolve to one media file, the later one's date is written last. |
| Migration.InsertByPlays | migrate.py:717-718 | Inserting keeps every element: the result is the input plus the new one. |
| Migration.InsertByPlaysSorted | migrate.py:717-718 | Inserting into a most-played-first list keeps it most-played-first. |
| Migration.SortUnmatched | migrate.py:717-718 | The report is a permutation of the unmatched list, most played first. |
| Migration.SortUnmatchedStable | migrate.py:717-718 | The sort is stable: tracks with equal plays keep their original order. |
| Playlists.ComposeIds | migrate.py:627-630 | The composed map only has ids from the track id map. |
| Playlists.ComposeIdsGet | migrate.py:627-630 | Looking up a legacy id in the composed map looks up its path, then that path's media file. |
| Playlists.UnplayedTrackNeverListed | migrate.py:117-120 | A legacy track none of whose copies at its path has plays or a rating gets no media file id for playlists, whatever the matcher. Only paths the track pass matched reach the composed map (migrate.py:405-406, 627-630). |
| Playlists.ComposeAllIds | migrate.py:627-630 | The corrected composed map only has ids from the track id map. |
| Playlists.ComposeAllIdsGet | migrate.py:627-630 | In the corrected map, looking up a legacy id resolves its path directly, with no regard to statistics. |
| Playlists.MatchableTrackListed | migrate.py:654-666 | With the corrected map, every playlist track whose path resolves to a non-empty media file id is listed. |
| Playlists.ComposeIdsRestricted | migrate.py:627-630 | The as-written map is the corrected one, with the lookup restricted to the paths the track pass matched. |
| Playlists.FindPlaylist | migrate.py:637-643 | The lookup finds the user's playlist of that name exactly when one exists, and returns its id. |
| Playlists.Resolve | migrate.py:657-667 | At most one id per legacy track, each non-empty and the media file of one of the playlist's tracks. |
| Playlists.ResolveAll | migrate.py:657-667 | A playlist whose every track resolves keeps all of them. |
| Playlists.ResolveAppend | migrate.py:657-667 | Resolution keeps playlist order. |
| Playlists.UnmatchedTrackDropped | migrate.py:658-660 | An unresolved track is skipped without leaving a gap. |
| Playlists.Without | migrate.py:644 | Deleting a playlist's entries removes exactly them. |
| Playlists.Numbered | migrate.py:654-667 | The i-th resolved track goes at position i. |
| Playlists.SetSongCount | migrate.py:669-672 | Only the target playlist's song count changes. |
| Playlists.RebuildPlaylist | migrate.py:636-672 | One playlist's rebuild adds at most one playlist row. Its entries, rows and re-run behaviour are stated by `RebuildPlaylistEntries`, `RebuildPlaylistRows` and `RebuildPlaylistTwice`. |
| Playlists.RebuildPlaylistEntries | migrate.py:636-667 | After the rebuild, the playlist holds exactly its resolved tracks at positions 0..k-1, and every other playlist keeps its entries. |
| Playlists.RebuildPlaylistRows | migrate.py:636-672 | An existing playlist of that name is reused, otherwise one row is added. Its song count is k, and other rows are untouched. |
| Playlists.RebuildPlaylistTwice | migrate.py:636-672 | Running the rebuild again changes nothing: no playlist row or entry is duplicated. |
| Playlists.MigratePlaylists | migrate.py:620-672 | Each playlist adds at most one row. |

## Findings

| source | as written | input that shows it | evidently intended | confidence | as-written member | corrected member |
|---|---|---|---|---|---|---|
| migrate.py:627-630 | Playlist ids are composed with `path_to_navidrome_id`, which only the track pass fills (migrate.py:405-406). That pass only sees tracks with plays or a rating (migrate.py:119-120). | A playlist holding track 7 at `a.mp3`, with no plays and no rating, and a media file at `a.mp3`. Some other track has plays or a rating, so `main` (migrate.py:832) runs the importer. The playlist is rebuilt with 0 tracks. | `track_id_map` records every in-prefix track whether or not it has statistics (migrate.py:117). So each playlist track whose path matches a media file should be listed. | medium; not executed | Playlists.UnplayedTrackNeverListed | Playlists.MatchableTrackListed |

A further consequence: when no track has plays or a rating, `main` (migrate.py:832)
never runs the importer, so no playlist is migrated at all.
`Playlists.MigratePlaylists` models the code as written. `Playlists.ComposeAllIds`
is the corrected composition; its lookup is the matching cascade applied to a
path, which is a parameter.

## Left out

- Database access (`sqlite3`, the queries, commit/close) is left out. The tables are maps and row sequences given as inputs.
- The SQL aggregates are not modelled: SUM, MAX and AVG, plus `round(avg)` (float rounding), which gives the averaged rating. The album and artist aggregates are inputs.
- A NULL `SUM` is not modelled: totals are plain integers. For a NULL total, `total_plays > 0` would raise in Python.
- The album and artist passes are assumed to run over one row per key, as the `GROUP BY` queries give.
- Reading the library export (`plistlib`) is left out. The parsed tracks and playlists are inputs. `urlparse` is a function parameter.
- The auto-detection of the music folder (`_detect_music_prefix`) is left out. The prefix is an input.
- `uuid4` is not modelled. The fresh playlist id is a parameter, and its freshness is a precondition of the rebuild lemmas.
- Clocks and date formatting (`datetime.now`, `strftime`, `format_play_date`, `format_datetime`) are not modelled. Dates are opaque strings.
- Audio tag I/O through mutagen (`read_date_tag`, `write_date_tag`, `strip_mbz_tag`) is left out. `analyse` returns the updates; applying them is modelled only as the date a track ends up with (`Splits.DateAfter`). Whether a write lands is a parameter: false for every update on a dry run, for a missing file, and for an unsupported format or a write error. The file-existence test and the write itself are not modelled.
- The split-album SQL loader (`load_split_albums`) is left out. Its case-insensitive grouping happens before `group_by_album`.
- Unicode normalisation, lower-casing, percent quoting and the `feat.` regular expressions are uninterpreted functions. Only their composition order is modelled.
- Command-line parsing, `main`, logging, printing and the summary are left out. Counters are modelled only for the track loop.
- Ratings.ConvertRating: the source compares a Python number, which may be a float. The model takes integers.
- Splits.Analyse: the action strings shown to the user are not modelled.
- Splits.MajorityForces: `majority_count / len(tracks) > 0.5` is modelled as `2 * count > n`, which is exact over the integers. Float division agrees for every realistic group size.
- Playlists.MigratePlaylists: states only the row-count bound. The per-playlist guarantees are stated on `RebuildPlaylist` by `RebuildPlaylistEntries`, `RebuildPlaylistRows` and `RebuildPlaylistTwice`.
- Matching.BuildIndexes: the path index and the metadata index are built from one `files` sequence. This assumes the two `SELECT … FROM media_file` queries (migrate.py:296, 339) return rows in the same order, which SQL does not guarantee without `ORDER BY`. That order decides which id wins among folded duplicates and which file the fuzzy scan finds first.

=== FILE: annotations.dfy ===
/** The importer's annotation upserts (migrate.py): per-user play count, last
    play date, rating and starred flag, stored in a table keyed by
    (user, item id, item type) and modelled here as a map. */
module Annotations {
  import opened Common
  import opened Ratings
  import opened Normalize

  datatype ItemType = MediaFile | Album | Artist

  datatype AnnKey = AnnKey(user: string, item: string, kind: ItemType)

  /** One annotation row. Play count and rating are nullable columns. */
  datatype Annotation = Annotation(
    playCount: Option<int>,
    playDate: Option<string>,
    rating: Option<int>,
    starred: bool)

  type Db = map<AnnKey, Annotation>

  /** `existing[0] or 0`. */
  function Plays(a: Annotation): int
  {
    a.playCount.GetOr(0)
  }

  /** `existing[1] or 0`. */
  function Stars(a: Annotation): int
  {
    a.rating.GetOr(0)
  }

  function Max(a: int, b: int): int
  {
    if a >= b then a else b
  }

  /** The starred flag agrees with the counters: set exactly when the row has a
      positive rating or a positive play count. */
  ghost predicate StarredConsistent(a: Annotation)
  {
    a.starred <==> Stars(a) > 0 || Plays(a) > 0
  }

  /** Only the row at `key` may have changed, and it exists afterwards. */
  ghost predicate OnlyKeyChanged(db: Db, r: Db, key: AnnKey)
  {
    && key in r
    && r.Keys == db.Keys + {key}
    && forall k :: k in db && k != key ==> r[k] == db[k]
  }

  /** The track annotation upsert: an existing row keeps the larger of its play
      count and the incoming one, and the larger of its rating and the converted
      incoming rating, and takes the incoming play date; a missing row is inserted
      with the incoming values. Either way the row ends up starred exactly when
      its rating or play count is positive. */
  function UpsertTrack(db: Db, key: AnnKey, playCount: int, itunesRating: int, playDate: Option<string>): (r: Db)
    ensures OnlyKeyChanged(db, r, key)
    ensures r[key].playDate == playDate
    ensures StarredConsistent(r[key])
    ensures key in db ==> Plays(r[key]) == Max(Plays(db[key]), playCount)
    ensures key in db ==> Stars(r[key]) == Max(Stars(db[key]), ConvertRating(itunesRating))
    ensures key !in db ==> Plays(r[key]) == playCount && Stars(r[key]) == ConvertRating(itunesRating)
  {
    var rating := ConvertRating(itunesRating);
    if key in db then
      var newPlays := Max(Plays(db[key]), playCount);
      var newRating := Max(Stars(db[key]), rating);
      db[key := Annotation(Some(newPlays), playDate, Some(newRating), newRating > 0 || newPlays > 0)]
    else
      db[key := Annotation(Some(playCount), playDate, Some(rating), rating > 0 || playCount > 0)]
  }

  /** Merging never lowers an existing play count or rating, and the result is at
      least the incoming values. */
  lemma UpsertTrackNeverDecreases(db: Db, key: AnnKey, playCount: int, itunesRating: int, playDate: Option<string>)
    requires key in db
    ensures Plays(UpsertTrack(db, key, playCount, itunesRating, playDate)[key]) >= Plays(db[key])
    ensures Stars(UpsertTrack(db, key, playCount, itunesRating, playDate)[key]) >= Stars(db[key])
    ensures Plays(UpsertTrack(db, key, playCount, itunesRating, playDate)[key]) >= playCount
    ensures Stars(UpsertTrack(db, key, playCount, itunesRating, playDate)[key]) >= ConvertRating(itunesRating)
  {
  }

  /** Importing the same statistics twice leaves the table as importing them once. */
  lemma UpsertTrackIdempotent(db: Db, key: AnnKey, playCount: int, itunesRating: int, playDate: Option<string>)
    ensures var once := UpsertTrack(db, key, playCount, itunesRating, playDate);
      UpsertTrack(once, key, playCount, itunesRating, playDate) == once
  {
    var once := UpsertTrack(db, key, playCount, itunesRating, playDate);
    var twice := UpsertTrack(once, key, playCount, itunesRating, playDate);
    assert twice[key] == once[key];
    assert twice.Keys == once.Keys;
  }

  /** An existing row with 10 plays and 3 stars, merged with 5 plays and a legacy
      rating of 60 (four stars), becomes 10 plays and 4 stars. */
  lemma UpsertTrackExample(db: Db, key: AnnKey)
    requires key in db && db[key].playCount == Some(10) && db[key].rating == Some(3)
    ensures var r := UpsertTrack(db, key, 5, 60, None);
      r[key] == Annotation(Some(10), None, Some(4), true)
  {
  }

  /** The album and artist upsert: like the track one for an existing row, but a
      new row takes the aggregate's starred flag or-ed with a positive play total
      rather than recomputing it from the rating. */
  function UpsertAggregate(db: Db, key: AnnKey, totalPlays: int, lastPlay: Option<string>,
                           rating: int, anyStarred: bool): (r: Db)
    ensures OnlyKeyChanged(db, r, key)
    ensures r[key].playDate == lastPlay
    ensures key in db ==> Plays(r[key]) == Max(Plays(db[key]), totalPlays)
    ensures key in db ==> Stars(r[key]) == Max(Stars(db[key]), rating)
    ensures key in db ==> StarredConsistent(r[key])
    ensures key !in db ==> r[key] == Annotation(Some(totalPlays), lastPlay, Some(rating), anyStarred || totalPlays > 0)
  {
    if key in db then
      var newPlays := Max(Plays(db[key]), totalPlays);
      var newRating := Max(Stars(db[key]), rating);
      db[key := Annotation(Some(newPlays), lastPlay, Some(newRating), newRating > 0 || newPlays > 0)]
    else
      db[key := Annotation(Some(totalPlays), lastPlay, Some(rating), anyStarred || totalPlays > 0)]
  }

  /** The album rating: an explicit rating recorded in the legacy library for the
      normalised (album, album artist) key, converted to stars, replaces the
      rounded average of the album's track ratings. */
  function AlbumRating(explicit: map<(string, string), int>, key: (string, string), averaged: int): (r: int)
    ensures key in explicit ==> 0 <= r <= 5
    ensures key !in explicit ==> r == averaged
  {
    if key in explicit then ConvertRating(explicit[key]) else averaged
  }

  /** With an explicit rating the tracks' average has no influence. */
  lemma ExplicitAlbumRatingOverrides(explicit: map<(string, string), int>, key: (string, string), a1: int, a2: int)
    requires key in explicit
    ensures AlbumRating(explicit, key, a1) == AlbumRating(explicit, key, a2) == ConvertRating(explicit[key])
  {
  }

  /** One row of the album or artist aggregate query, with the rating already
      chosen: the key of the annotation to upsert, the summed play count, the
      latest play date, the rating and whether any track is starred. */
  datatype AggregateRow = AggregateRow(key: AnnKey, totalPlays: int, lastPlay: Option<string>, rating: int, anyStarred: bool)

  /** The loops of `_create_album_annotations` and `_create_artist_annotations`:
      each aggregate row is upserted in turn, adding exactly the rows' keys. */
  function UpsertAggregates(db: Db, rows: seq<AggregateRow>): (r: Db)
    ensures r.Keys == db.Keys + (set row | row in rows :: row.key)
  {
    if |rows| == 0 then db
    else
      var n := |rows| - 1;
      var row := rows[n];
      var prev := UpsertAggregates(db, rows[..n]);
      RowKeysSnoc(rows);
      UpsertAggregate(prev, row.key, row.totalPlays, row.lastPlay, row.rating, row.anyStarred)
  }

  lemma RowKeysSnoc(rows: seq<AggregateRow>)
    requires |rows| > 0
    ensures var n := |rows| - 1;
      (set x | x in rows :: x.key) == (set x | x in rows[..n] :: x.key) + {rows[n].key}
  {
    var n := |rows| - 1;
    assert rows == rows[..n] + [rows[n]];
  }

  /** The last row of a non-empty batch is upserted over the others. */
  lemma UpsertAggregatesSnoc(db: Db, rows: seq<AggregateRow>)
    requires |rows| > 0
    ensures var n := |rows| - 1;
      var last := rows[n];
      UpsertAggregates(db, rows)
      == UpsertAggregate(UpsertAggregates(db, rows[..n]), last.key, last.totalPlays, last.lastPlay, last.rating, last.anyStarred)
  {
  }

  /** Rows of keys no aggregate row names are untouched. */
  lemma {:induction false} UpsertAggregatesOthers(db: Db, rows: seq<AggregateRow>, k: AnnKey)
    requires k in db && forall row :: row in rows ==> row.key != k
    ensures UpsertAggregates(db, rows)[k] == db[k]
  {
    if |rows| > 0 {
      var n := |rows| - 1;
      assert rows[n] in rows;
      assert forall row :: row in rows[..n] ==> row in rows;
      UpsertAggregatesOthers(db, rows[..n], k);
      UpsertAggregatesSnoc(db, rows);
    }
  }

  /** Existing counters never drop. */
  lemma {:induction false} UpsertAggregatesMonotone(db: Db, rows: seq<AggregateRow>, k: AnnKey)
    requires k in db
    ensures var r := UpsertAggregates(db, rows);
      Plays(r[k]) >= Plays(db[k]) && Stars(r[k]) >= Stars(db[k])
  {
    if |rows| > 0 {
      var n := |rows| - 1;
      UpsertAggregatesMonotone(db, rows[..n], k);
      UpsertAggregatesSnoc(db, rows);
    }
  }

  /** Every row's key ends up with at least the row's plays and rating, whatever
      later rows for the same key bring. */
  lemma {:induction false} UpsertAggregatesCover(db: Db, rows: seq<AggregateRow>, row: AggregateRow)
    requires row in rows
    ensures var r := UpsertAggregates(db, rows);
      Plays(r[row.key]) >= row.totalPlays && Stars(r[row.key]) >= row.rating
  {
    var n := |rows| - 1;
    var last := rows[n];
    var prev := UpsertAggregates(db, rows[..n]);
    UpsertAggregatesSnoc(db, rows);
    if row != last {
      assert rows == rows[..n] + [last];
      assert row in rows[..n];
      UpsertAggregatesCover(db, rows[..n], row);
      UpsertAggregateKeeps(prev, last, row.key, row.totalPlays, row.rating);
    } else {
      UpsertAggregateCovers(prev, last);
    }
  }

  lemma UpsertAggregateKeeps(db: Db, row: AggregateRow, k: AnnKey, plays: int, stars: int)
    requires k in db && Plays(db[k]) >= plays && Stars(db[k]) >= stars
    ensures var r := UpsertAggregate(db, row.key, row.totalPlays, row.lastPlay, row.rating, row.anyStarred);
      k in r && Plays(r[k]) >= plays && Stars(r[k]) >= stars
  {
  }

  lemma UpsertAggregateCovers(db: Db, row: AggregateRow)
    ensures var r := UpsertAggregate(db, row.key, row.totalPlays, row.lastPlay, row.rating, row.anyStarred);
      Plays(r[row.key]) >= row.totalPlays && Stars(r[row.key]) >= row.rating
  {
  }

  /** One album of the aggregate query, before its rating is chosen: the
      rounded average of its track ratings (zero when there is none). */
  datatype AlbumTotals = AlbumTotals(
    albumId: string,
    album: string,
    albumArtist: string,
    totalPlays: int,
    lastPlay: Option<string>,
    averaged: int,
    anyStarred: bool)

  /** The album rows to upsert: the legacy library's explicit rating for the
      album's normalised (album, album artist) key replaces the average. */
  function AlbumRows(nz: Normalizers, explicit: map<(string, string), int>, user: string, albums: seq<AlbumTotals>): (r: seq<AggregateRow>)
    ensures |r| == |albums|
    ensures forall i :: 0 <= i < |albums| ==> r[i].key == AnnKey(user, albums[i].albumId, Album)
    ensures forall i :: 0 <= i < |albums| ==>
      var key := (Field(nz, albums[i].album), Field(nz, albums[i].albumArtist));
      r[i].rating == if key in explicit then ConvertRating(explicit[key]) else albums[i].averaged
  {
    MapSeq(albums, (a: AlbumTotals) =>
      AggregateRow(AnnKey(user, a.albumId, Album), a.totalPlays, a.lastPlay,
                   AlbumRating(explicit, (Field(nz, a.album), Field(nz, a.albumArtist)), a.averaged),
                   a.anyStarred))
  }

  /** Album annotations never touch track or artist rows. */
  lemma AlbumAnnotationsOnlyAlbums(nz: Normalizers, explicit: map<(string, string), int>, user: string,
                                   albums: seq<AlbumTotals>, db: Db, k: AnnKey)
    requires k in db && k.kind != Album
    ensures UpsertAggregates(db, AlbumRows(nz, explicit, user, albums))[k] == db[k]
  {
    var rows := AlbumRows(nz, explicit, user, albums);
    forall row | row in rows ensures row.key != k {
      var i :| 0 <= i < |rows| && rows[i] == row;
    }
    UpsertAggregatesOthers(db, rows, k);
  }
}

=== FILE: assoc.dfy ===
/** Python dictionaries as the scripts use them: keys kept in first-insertion
    order, each mapped to the value most recently assigned to it. */
module AssocList {
  import opened Common

  /** A dictionary as its sequence of items, in iteration order. */
  type Dict<K, V> = seq<(K, V)>

  ghost predicate KeysDistinct<K, V>(d: Dict<K, V>)
  {
    forall i, j :: 0 <= i < j < |d| ==> d[i].0 != d[j].0
  }

  function Keys<K(==), V(==)>(d: Dict<K, V>): set<K>
  {
    set p | p in d :: p.0
  }

  lemma KeysCons<K, V>(d: Dict<K, V>)
    requires |d| > 0
    ensures Keys(d) == {d[0].0} + Keys(d[1..])
  {
    assert d == [d[0]] + d[1..];
  }

  /** `d.get(k)`. */
  function Get<K(==), V(==)>(d: Dict<K, V>, k: K): (r: Option<V>)
    ensures r.Some? <==> k in Keys(d)
    ensures r.Some? ==> (k, r.value) in d
  {
    if |d| == 0 then None
    else if d[0].0 == k then Some(d[0].1)
    else
      KeysCons(d);
      Get(d[1..], k)
  }

  /** Position of the item holding `k`. */
  function IndexOf<K(==), V(==)>(d: Dict<K, V>, k: K): (i: nat)
    requires k in Keys(d)
    ensures i < |d| && d[i].0 == k
    ensures forall j :: 0 <= j < i ==> d[j].0 != k
  {
    KeysCons(d);
    if d[0].0 == k then 0 else 1 + IndexOf(d[1..], k)
  }

  /** `d[k] = v`: an existing key keeps its place and takes the new value;
      a new key goes to the end. */
  function Put<K(==), V(==)>(d: Dict<K, V>, k: K, v: V): (r: Dict<K, V>)
    ensures Keys(r) == Keys(d) + {k}
    ensures k in Keys(d) ==> |r| == |d|
    ensures k !in Keys(d) ==> r == d + [(k, v)]
    ensures forall i :: 0 <= i < |d| ==> r[i].0 == d[i].0
    ensures forall i :: 0 <= i < |d| && d[i].0 != k ==> r[i] == d[i]
    ensures forall p :: p in r ==> p in d || p == (k, v)
  {
    if k in Keys(d) then
      var i := IndexOf(d, k);
      var r := d[i := (k, v)];
      assert forall p :: p in r ==> p in d || p == (k, v) by {
        forall p | p in r ensures p in d || p == (k, v) {
          var j :| 0 <= j < |r| && r[j] == p;
          if j != i { assert r[j] == d[j]; }
        }
      }
      assert Keys(r) == Keys(d) by {
        forall p | p in d ensures p.0 in Keys(r) {
          var j :| 0 <= j < |d| && d[j] == p;
          assert r[j].0 == p.0;
        }
        forall p | p in r ensures p.0 in Keys(d) {
          var j :| 0 <= j < |r| && r[j] == p;
          assert d[j].0 == p.0;
        }
      }
      r
    else
      d + [(k, v)]
  }

  lemma PutDistinct<K, V>(d: Dict<K, V>, k: K, v: V)
    requires KeysDistinct(d)
    ensures KeysDistinct(Put(d, k, v))
  {
    if k !in Keys(d) {
      forall i | 0 <= i < |d| ensures d[i].0 != k {
        assert d[i] in d;
      }
    }
  }

  /** Reading back after `Put` sees the new value for `k` and the old one elsewhere. */
  lemma {:induction false} GetPut<K, V>(d: Dict<K, V>, k: K, v: V, k': K)
    requires KeysDistinct(d)
    ensures Get(Put(d, k, v), k') == if k' == k then Some(v) else Get(d, k')
  {
    if |d| > 0 && d[0].0 != k {
      var r := Put(d, k, v);
      PutCons(d, k, v);
      assert r[1..] == Put(d[1..], k, v);
      GetPut(d[1..], k, v, k');
    } else if |d| > 0 {
      var r := Put(d, k, v);
      assert r[0] == (k, v);
      assert r[1..] == d[1..];
      if k' != k && k' in Keys(d[1..]) {
        var i :| 0 <= i < |d[1..]| && d[1..][i].0 == k';
        assert d[i + 1].0 == k';
      }
    }
  }

  /** `Put` past a first item with another key keeps that item in front. */
  lemma PutCons<K, V>(d: Dict<K, V>, k: K, v: V)
    requires |d| > 0 && d[0].0 != k
    ensures Put(d, k, v) == [d[0]] + Put(d[1..], k, v)
  {
    KeysCons(d);
    if k in Keys(d) {
      var j := IndexOf(d[1..], k);
      assert IndexOf(d, k) == 1 + j;
      assert d[1 + j := (k, v)] == [d[0]] + d[1..][j := (k, v)];
    } else {
      assert d + [(k, v)] == [d[0]] + (d[1..] + [(k, v)]);
    }
  }

  /** A dictionary built by assigning `kvs` in order (`{k: v for k, v in kvs}`). */
  function FromPairs<K(==), V(==)>(kvs: seq<(K, V)>): (r: Dict<K, V>)
    ensures KeysDistinct(r)
    ensures Keys(r) == Keys(kvs)
    ensures forall p :: p in r ==> p in kvs
  {
    if |kvs| == 0 then []
    else
      var n := |kvs| - 1;
      var prev := FromPairs(kvs[..n]);
      assert kvs == kvs[..n] + [kvs[n]];
      assert Keys(kvs) == Keys(kvs[..n]) + {kvs[n].0};
      PutDistinct(prev, kvs[n].0, kvs[n].1);
      Put(prev, kvs[n].0, kvs[n].1)
  }

  /** `Get` reads the first item holding the key. */
  lemma {:induction false} GetIsFirst<K, V>(d: Dict<K, V>, k: K)
    requires k in Keys(d)
    ensures Get(d, k) == Some(d[IndexOf(d, k)].1)
  {
    KeysCons(d);
    if d[0].0 != k {
      GetIsFirst(d[1..], k);
    }
  }

  /** Assigning one more pair is one more `Put`. */
  lemma FromPairsSnoc<K, V>(kvs: seq<(K, V)>, k: K, v: V)
    ensures FromPairs(kvs + [(k, v)]) == Put(FromPairs(kvs), k, v)
  {
    assert (kvs + [(k, v)])[..|kvs|] == kvs;
  }

  /** Reference reading of a dictionary built from `kvs`: the value of the last
      pair assigning `k`. */
  function LastAssigned<K(==), V(==)>(kvs: seq<(K, V)>, k: K): (r: Option<V>)
    ensures r.Some? <==> k in Keys(kvs)
    ensures r.Some? ==> (k, r.value) in kvs
  {
    if |kvs| == 0 then None
    else
      var n := |kvs| - 1;
      assert kvs == kvs[..n] + [kvs[n]];
      assert Keys(kvs) == Keys(kvs[..n]) + {kvs[n].0};
      if kvs[n].0 == k then Some(kvs[n].1) else LastAssigned(kvs[..n], k)
  }

  /** The value `FromPairs` keeps for a key is the one assigned last. */
  lemma {:induction false} FromPairsGet<K, V>(kvs: seq<(K, V)>, k: K)
    ensures Get(FromPairs(kvs), k) == LastAssigned(kvs, k)
  {
    if |kvs| > 0 {
      var n := |kvs| - 1;
      assert kvs == kvs[..n] + [(kvs[n].0, kvs[n].1)];
      FromPairsSnoc(kvs[..n], kvs[n].0, kvs[n].1);
      GetPut(FromPairs(kvs[..n]), kvs[n].0, kvs[n].1, k);
      FromPairsGet(kvs[..n], k);
    }
  }
}

=== FILE: common.dfy ===
/** Shared vocabulary: an optional value, occurrence counting over sequences and
    the "most common element" choice that Python's `Counter.most_common(1)` makes. */
module Common {

  /** A value that may be absent (Python's `None`). */
  datatype Option<+T> = None | Some(value: T) {

    /** The wrapped value, or `default` when absent (Python's `x or default`
        for nullable database columns). */
    function GetOr(default: T): T {
      match this
      case Some(v) => v
      case None => default
    }
  }

  /** Number of occurrences of `x` in `s`. */
  function Count<T(==)>(s: seq<T>, x: T): (n: nat)
    ensures n <= |s|
    ensures n > 0 <==> x in s
  {
    if |s| == 0 then 0
    else (if s[0] == x then 1 else 0) + Count(s[1..], x)
  }

  /** Counting distributes over concatenation. */
  lemma {:induction false} CountAppend<T>(a: seq<T>, b: seq<T>, x: T)
    ensures Count(a + b, x) == Count(a, x) + Count(b, x)
  {
    if |a| == 0 {
      assert a + b == b;
    } else {
      assert (a + b)[1..] == a[1..] + b;
      CountAppend(a[1..], b, x);
    }
  }

  /** Two different values cannot together occur more often than the sequence is long. */
  lemma {:induction false} CountTwo<T>(s: seq<T>, x: T, y: T)
    requires x != y
    ensures Count(s, x) + Count(s, y) <= |s|
  {
    if |s| > 0 {
      CountTwo(s[1..], x, y);
    }
  }

  /** Position of the first occurrence of `x` in `s`. */
  function FirstIndex<T(==)>(s: seq<T>, x: T): (i: nat)
    requires x in s
    ensures i < |s| && s[i] == x
    ensures forall j :: 0 <= j < i ==> s[j] != x
  {
    if s[0] == x then 0 else 1 + FirstIndex(s[1..], x)
  }

  /** True when `m` is a value of `s` occurring at least as often as any other. */
  ghost predicate IsMostCommon<T>(s: seq<T>, m: T)
  {
    && m in s
    && forall x :: x in s ==> Count(s, x) <= Count(s, m)
  }

  /** The left-to-right scan behind `Mode`: `s[b]` is the most common value among
      `s[..i]`, and no earlier position holds a value counted as often. */
  function ModeIndexFrom<T(==)>(s: seq<T>, i: nat, b: nat): (k: nat)
    requires b < i <= |s|
    requires forall j :: 0 <= j < i ==> Count(s, s[j]) <= Count(s, s[b])
    requires forall j :: 0 <= j < b ==> Count(s, s[j]) < Count(s, s[b])
    ensures k < |s|
    ensures forall j :: 0 <= j < |s| ==> Count(s, s[j]) <= Count(s, s[k])
    ensures forall j :: 0 <= j < k ==> Count(s, s[j]) < Count(s, s[k])
    decreases |s| - i
  {
    if i == |s| then b
    else if Count(s, s[i]) > Count(s, s[b]) then
      NewLeader(s, i, b);
      ModeIndexFrom(s, i + 1, i)
    else
      ModeIndexFrom(s, i + 1, b)
  }

  /** A value counted more often than the leader so far leads from now on. */
  lemma NewLeader<T>(s: seq<T>, i: nat, b: nat)
    requires b < i < |s|
    requires forall j :: 0 <= j < i ==> Count(s, s[j]) <= Count(s, s[b])
    requires Count(s, s[i]) > Count(s, s[b])
    ensures forall j :: 0 <= j < i + 1 ==> Count(s, s[j]) <= Count(s, s[i])
    ensures forall j :: 0 <= j < i ==> Count(s, s[j]) < Count(s, s[i])
  {
  }

  /** `Counter(s).most_common(1)[0][0]`: a value with the highest count; among
      values tied for the highest count, the one whose first occurrence is earliest
      (the order in which a Counter remembers its keys). */
  function Mode<T(==)>(s: seq<T>): (m: T)
    requires |s| > 0
    ensures IsMostCommon(s, m)
    ensures forall j :: 0 <= j < FirstIndex(s, m) ==> Count(s, s[j]) < Count(s, m)
  {
    var k := ModeIndexFrom(s, 1, 0);
    assert FirstIndex(s, s[k]) == k;
    s[k]
  }

  /** A value held by strictly more than half of `s` is the most common one, so the
      tie-break inside `Mode` never decides it. */
  lemma MajorityIsMode<T>(s: seq<T>, d: T)
    requires 2 * Count(s, d) > |s|
    ensures Mode(s) == d
  {
    var m := Mode(s);
    assert d in s;
    if m != d {
      CountTwo(s, m, d);
    }
  }

  /** When the most common value has no strict majority, no value has one. */
  lemma NoMajorityAnywhere<T>(s: seq<T>, d: T)
    requires |s| > 0
    requires 2 * Count(s, Mode(s)) <= |s|
    ensures 2 * Count(s, d) <= |s|
  {
    if d in s {
      assert Count(s, d) <= Count(s, Mode(s));
    }
  }

  /** `[f(x) for x in xs]`. */
  function MapSeq<T(!new), U(!new)>(xs: seq<T>, f: T -> U): (r: seq<U>)
    ensures |r| == |xs|
    ensures forall i :: 0 <= i < |xs| ==> r[i] == f(xs[i])
    ensures forall y :: y in r <==> exists x :: x in xs && y == f(x)
  {
    if |xs| == 0 then []
    else
      var rest := MapSeq(xs[1..], f);
      assert forall x :: x in xs <==> x == xs[0] || x in xs[1..] by {
        assert xs == [xs[0]] + xs[1..];
      }
      [f(xs[0])] + rest
  }

  /** The first hit of a `for x in xs: ... break` search: `f` of the earliest
      element for which `f` gives a value, or `None` when none does. */
  function FirstSome<T, U>(xs: seq<T>, f: T -> Option<U>): (r: Option<U>)
    ensures r.None? <==> forall i :: 0 <= i < |xs| ==> f(xs[i]).None?
    ensures r.Some? ==> exists i :: 0 <= i < |xs| && f(xs[i]) == r
                          && forall j :: 0 <= j < i ==> f(xs[j]).None?
  {
    if |xs| == 0 then None
    else if f(xs[0]).Some? then f(xs[0])
    else
      var r := FirstSome(xs[1..], f);
      assert forall i :: 1 <= i < |xs| ==> xs[i] == xs[1..][i - 1];
      r
  }

  /** One hit anywhere is enough for `FirstSome` to find something. */
  lemma FirstSomeHit<T, U>(xs: seq<T>, f: T -> Option<U>, i: int)
    requires 0 <= i < |xs| && f(xs[i]).Some?
    ensures FirstSome(xs, f).Some?
  {
  }
}

=== FILE: library.dfy ===
/** The importer's parse step (migrate.py): which tracks of the legacy library
    export carry statistics worth importing, which playlists are migrated, and
    the explicit album ratings. The export is taken already parsed; the
    property-list reader is not modelled. */
module Library {
  import opened Common
  import opened AssocList
  import opened Normalize

  /** One entry of the export's `Tracks` dictionary. Absent keys take the
      defaults the source reads them with (`''`, `0`, `False`); `albumArtist` is
      `None` when the entry has no `Album Artist` key. */
  datatype SourceTrack = SourceTrack(
    id: int,
    location: string,
    name: string,
    artist: string,
    album: string,
    albumArtist: Option<string>,
    playCount: int,
    skipCount: int,
    rating: int,
    playDate: Option<string>,
    dateAdded: Option<string>,
    albumRating: int,
    albumRatingComputed: bool)

  /** The statistics kept for a track, as stored in the parsed data. */
  datatype TrackStats = TrackStats(
    playCount: int,
    skipCount: int,
    rating: int,
    playDate: Option<string>,
    dateAdded: Option<string>,
    starred: bool,
    title: string,
    artist: string,
    album: string,
    trackId: int)

  /** How a Location is turned into a file path: `urlparse(location).path`
      (not modelled) followed by `unquote`, and the music folder prefix
      (given on the command line or auto-detected; `None` when neither). */
  datatype PathSetup = PathSetup(urlPath: string -> string, nz: Normalizers, prefix: Option<string>)

  /** The track's path relative to the music folder, or `None` when it has no
      Location or lies outside the folder (an empty prefix counts as no prefix). */
  function RelativePath(setup: PathSetup, t: SourceTrack): (r: Option<string>)
    ensures r.Some? ==> t.location != ""
    ensures r.Some? ==> (setup.prefix.Some? && setup.prefix.value != ""
      && setup.nz.unquote(setup.urlPath(t.location)) == setup.prefix.value + r.value)
    ensures (&& t.location != "" && setup.prefix.Some? && setup.prefix.value != ""
             && setup.prefix.value <= setup.nz.unquote(setup.urlPath(t.location))) ==> r.Some?
  {
    if t.location == "" then None
    else
      var filePath := setup.nz.unquote(setup.urlPath(t.location));
      match setup.prefix
      case Some(prefix) =>
        if prefix != "" && prefix <= filePath then
          assert filePath == prefix + filePath[|prefix|..];
          Some(filePath[|prefix|..])
        else None
      case None => None
  }

  predicate HasStats(t: SourceTrack)
  {
    t.playCount > 0 || t.rating > 0
  }

  function StatsOf(t: SourceTrack): TrackStats
  {
    TrackStats(t.playCount, t.skipCount, t.rating, t.playDate, t.dateAdded,
               t.playCount > 0 || t.rating > 0, t.name, t.artist, t.album, t.id)
  }

  /** The `(path, stats)` assignments the parse loop makes, in order. */
  function StatsPairs(setup: PathSetup, tracks: seq<SourceTrack>): seq<(string, TrackStats)>
  {
    if |tracks| == 0 then []
    else
      var n := |tracks| - 1;
      var t := tracks[n];
      StatsPairs(setup, tracks[..n])
        + (if HasStats(t) && RelativePath(setup, t).Some? then [(RelativePath(setup, t).value, StatsOf(t))] else [])
  }

  /** The `track_id -> path` assignments the parse loop makes, in order. */
  function IdPairs(setup: PathSetup, tracks: seq<SourceTrack>): seq<(int, string)>
  {
    if |tracks| == 0 then []
    else
      var n := |tracks| - 1;
      var t := tracks[n];
      IdPairs(setup, tracks[..n])
        + (if RelativePath(setup, t).Some? then [(t.id, RelativePath(setup, t).value)] else [])
  }

  datatype ParsedTracks = ParsedTracks(data: Dict<string, TrackStats>, trackIdMap: Dict<int, string>)

  /** `parse_itunes_library`, the track loop: every track inside the music folder
      is recorded in the id map; those that also have plays or a rating have
      their statistics stored under their relative path. */
  function ParseTracks(setup: PathSetup, tracks: seq<SourceTrack>): (r: ParsedTracks)
    ensures KeysDistinct(r.data) && KeysDistinct(r.trackIdMap)
  {
    ParsedTracks(FromPairs(StatsPairs(setup, tracks)), FromPairs(IdPairs(setup, tracks)))
  }

  /** Reference reading of the parsed data: the statistics of the last track with
      plays or a rating at relative path `p`, if there is one. */
  function LastStatsAt(setup: PathSetup, tracks: seq<SourceTrack>, p: string): (r: Option<TrackStats>)
    ensures r.Some? <==> exists t :: t in tracks && HasStats(t) && RelativePath(setup, t) == Some(p)
    ensures r.Some? ==> r.value.starred && (r.value.playCount > 0 || r.value.rating > 0)
  {
    if |tracks| == 0 then None
    else
      var n := |tracks| - 1;
      var t := tracks[n];
      assert forall u :: u in tracks <==> u in tracks[..n] || u == t by {
        assert tracks == tracks[..n] + [t];
      }
      if HasStats(t) && RelativePath(setup, t) == Some(p) then Some(StatsOf(t))
      else LastStatsAt(setup, tracks[..n], p)
  }

  /** Reference reading of the id map: the relative path of the last track inside
      the music folder with id `id`, if there is one. */
  function LastPathOf(setup: PathSetup, tracks: seq<SourceTrack>, id: int): (r: Option<string>)
    ensures r.Some? <==> exists t :: t in tracks && t.id == id && RelativePath(setup, t).Some?
    ensures r.Some? ==> exists t :: t in tracks && t.id == id && RelativePath(setup, t) == r
  {
    if |tracks| == 0 then None
    else
      var n := |tracks| - 1;
      var t := tracks[n];
      assert forall u :: u in tracks <==> u in tracks[..n] || u == t by {
        assert tracks == tracks[..n] + [t];
      }
      if t.id == id && RelativePath(setup, t).Some? then RelativePath(setup, t)
      else LastPathOf(setup, tracks[..n], id)
  }

  /** The parsed data holds, at each path, exactly the statistics of the last
      track with plays or a rating there, and nothing at other paths. */
  lemma {:induction false} ParseTracksData(setup: PathSetup, tracks: seq<SourceTrack>, p: string)
    ensures Get(ParseTracks(setup, tracks).data, p) == LastStatsAt(setup, tracks, p)
  {
    if |tracks| > 0 {
      var n := |tracks| - 1;
      var t := tracks[n];
      var prev := StatsPairs(setup, tracks[..n]);
      ParseTracksData(setup, tracks[..n], p);
      if HasStats(t) && RelativePath(setup, t).Some? {
        var q := RelativePath(setup, t).value;
        assert StatsPairs(setup, tracks) == prev + [(q, StatsOf(t))];
        FromPairsSnoc(prev, q, StatsOf(t));
        GetPut(FromPairs(prev), q, StatsOf(t), p);
      } else {
        assert StatsPairs(setup, tracks) == prev + [];
        assert prev + [] == prev;
      }
    }
  }

  /** The id map sends each id to the relative path of the last track inside the
      music folder carrying it, whether or not that track has statistics. */
  lemma {:induction false} ParseTracksIdMap(setup: PathSetup, tracks: seq<SourceTrack>, id: int)
    ensures Get(ParseTracks(setup, tracks).trackIdMap, id) == LastPathOf(setup, tracks, id)
  {
    if |tracks| > 0 {
      var n := |tracks| - 1;
      var t := tracks[n];
      var prev := IdPairs(setup, tracks[..n]);
      ParseTracksIdMap(setup, tracks[..n], id);
      if RelativePath(setup, t).Some? {
        var q := RelativePath(setup, t).value;
        assert IdPairs(setup, tracks) == prev + [(t.id, q)];
        FromPairsSnoc(prev, t.id, q);
        GetPut(FromPairs(prev), t.id, q, id);
      } else {
        assert IdPairs(setup, tracks) == prev + [];
        assert prev + [] == prev;
      }
    }
  }

  // ---------------------------------------------------------------------------
  // Playlists
  // ---------------------------------------------------------------------------

  /** One entry of the export's `Playlists` list. `smartInfo` and `smartCriteria`
      say whether those keys hold a non-empty value; each item is its
      `Track ID`, `None` when absent. */
  datatype SourcePlaylist = SourcePlaylist(
    name: string,
    smartInfo: bool,
    smartCriteria: bool,
    distinguishedKind: Option<int>,
    items: seq<Option<int>>)

  datatype Playlist = Playlist(name: string, trackIds: seq<int>)

  const SystemPlaylists: set<string> :=
    {"Library", "Music", "Downloaded", "Movies", "TV Shows",
     "Podcasts", "Audiobooks", "Books", "PDFs", "Genius"}

  /** Smart, distinguished, system-named and empty playlists are skipped. */
  predicate Migratable(p: SourcePlaylist)
  {
    && !p.smartInfo
    && !p.smartCriteria
    && p.distinguishedKind.None?
    && p.name !in SystemPlaylists
    && |p.items| > 0
  }

  /** The truthy track ids of a playlist's items, in order. */
  function TrackIds(items: seq<Option<int>>): (r: seq<int>)
    ensures forall x :: x in r <==> x != 0 && Some(x) in items
    ensures |r| == |items| - Count(items, None) - Count(items, Some(0))
  {
    if |items| == 0 then []
    else
      var rest := TrackIds(items[1..]);
      assert forall y :: y in items <==> y == items[0] || y in items[1..] by {
        assert items == [items[0]] + items[1..];
      }
      match items[0]
      case Some(x) => if x != 0 then [x] + rest else rest
      case None => rest
  }

  /** The kept ids keep item order: the ids of a concatenation are those of its
      halves, concatenated. */
  lemma {:induction false} TrackIdsAppend(a: seq<Option<int>>, b: seq<Option<int>>)
    ensures TrackIds(a + b) == TrackIds(a) + TrackIds(b)
  {
    if |a| > 0 {
      assert (a + b)[0] == a[0];
      assert (a + b)[1..] == a[1..] + b;
      TrackIdsAppend(a[1..], b);
    } else {
      assert a + b == b;
    }
  }

  /** `_parse_playlists`: the migratable playlists, in source order, each with its
      truthy track ids. */
  function ParsePlaylists(ps: seq<SourcePlaylist>): (r: seq<Playlist>)
    ensures |r| <= |ps|
    ensures forall q :: q in r <==> exists p :: p in ps && Migratable(p) && q == Playlist(p.name, TrackIds(p.items))
  {
    if |ps| == 0 then []
    else
      var rest := ParsePlaylists(ps[1..]);
      assert forall y :: y in ps <==> y == ps[0] || y in ps[1..] by {
        assert ps == [ps[0]] + ps[1..];
      }
      if Migratable(ps[0]) then [Playlist(ps[0].name, TrackIds(ps[0].items))] + rest else rest
  }

  /** Filtering keeps source order: the playlists of a concatenated list are those
      of its halves, concatenated. */
  lemma {:induction false} ParsePlaylistsAppend(a: seq<SourcePlaylist>, b: seq<SourcePlaylist>)
    ensures ParsePlaylists(a + b) == ParsePlaylists(a) + ParsePlaylists(b)
  {
    if |a| > 0 {
      assert (a + b)[0] == a[0];
      assert (a + b)[1..] == a[1..] + b;
      ParsePlaylistsAppend(a[1..], b);
    } else {
      assert a + b == b;
    }
  }

  /** No migrated playlist is a system one, and no migrated track id is falsy. */
  lemma ParsePlaylistsClean(ps: seq<SourcePlaylist>)
    ensures forall q :: q in ParsePlaylists(ps) ==> q.name !in SystemPlaylists && 0 !in q.trackIds
  {
  }

  // ---------------------------------------------------------------------------
  // Explicit album ratings
  // ---------------------------------------------------------------------------

  /** A track votes when it carries a non-zero album rating the user set. */
  predicate Votes(t: SourceTrack)
  {
    t.albumRating != 0 && !t.albumRatingComputed
  }

  /** The normalised (album, album artist) key, falling back to the artist when
      the entry has no album artist. */
  function RatingKey(nz: Normalizers, t: SourceTrack): (string, string)
  {
    (Field(nz, t.album), Field(nz, t.albumArtist.GetOr(t.artist)))
  }

  function VoteKeys(nz: Normalizers, tracks: seq<SourceTrack>): set<(string, string)>
  {
    set t | t in tracks && Votes(t) :: RatingKey(nz, t)
  }

  /** The votes cast for `key`, in library order. */
  function VotesFor(nz: Normalizers, tracks: seq<SourceTrack>, key: (string, string)): (r: seq<int>)
    ensures forall v :: v in r ==> v != 0
    ensures key in VoteKeys(nz, tracks) ==> |r| > 0
    ensures forall v :: v in r <==> exists t :: t in tracks && Votes(t) && RatingKey(nz, t) == key && t.albumRating == v
  {
    if |tracks| == 0 then []
    else
      var t := tracks[0];
      var rest := VotesFor(nz, tracks[1..], key);
      assert forall u :: u in tracks <==> u == t || u in tracks[1..] by {
        assert tracks == [t] + tracks[1..];
      }
      assert key in VoteKeys(nz, tracks) && !(Votes(t) && RatingKey(nz, t) == key) ==> key in VoteKeys(nz, tracks[1..]) by {
        if key in VoteKeys(nz, tracks) && !(Votes(t) && RatingKey(nz, t) == key) {
          var u :| u in tracks && Votes(u) && RatingKey(nz, u) == key;
          assert u != t;
          assert tracks == [t] + tracks[1..];
        }
      }
      (if Votes(t) && RatingKey(nz, t) == key then [t.albumRating] else []) + rest
  }

  /** Votes are collected in library order: the votes of a concatenation are
      those of its halves, concatenated. With a one-track list this pins down
      each track's contribution, so the counts are exactly the tracks' votes. */
  lemma {:induction false} VotesForAppend(nz: Normalizers, a: seq<SourceTrack>, b: seq<SourceTrack>, key: (string, string))
    ensures VotesFor(nz, a + b, key) == VotesFor(nz, a, key) + VotesFor(nz, b, key)
  {
    if |a| > 0 {
      assert (a + b)[0] == a[0];
      assert (a + b)[1..] == a[1..] + b;
      VotesForAppend(nz, a[1..], b, key);
    } else {
      assert a + b == b;
    }
  }

  /** `_parse_album_ratings`: for each album key with at least one vote, the most
      frequent vote (ties go to the value voted first, as `Counter` does). */
  function ExplicitAlbumRatings(nz: Normalizers, tracks: seq<SourceTrack>): (r: map<(string, string), int>)
    ensures r.Keys == VoteKeys(nz, tracks)
    ensures forall k :: k in r ==> r[k] != 0 && IsMostCommon(VotesFor(nz, tracks, k), r[k])
  {
    map k | k in VoteKeys(nz, tracks) :: Mode(VotesFor(nz, tracks, k))
  }

  /** A rating held by more than half of an album's votes is the one recorded. */
  lemma MajorityVoteWins(nz: Normalizers, tracks: seq<SourceTrack>, k: (string, string), v: int)
    requires 2 * Count(VotesFor(nz, tracks, k), v) > |VotesFor(nz, tracks, k)|
    ensures k in ExplicitAlbumRatings(nz, tracks)
    ensures ExplicitAlbumRatings(nz, tracks)[k] == v
  {
    var votes := VotesFor(nz, tracks, k);
    assert v in votes;
    VoteKeyOfVote(nz, tracks, k, v);
    MajorityIsMode(votes, v);
  }

  lemma {:induction false} VoteKeyOfVote(nz: Normalizers, tracks: seq<SourceTrack>, k: (string, string), v: int)
    requires v in VotesFor(nz, tracks, k)
    ensures k in VoteKeys(nz, tracks)
  {
    var t := tracks[0];
    if Votes(t) && RatingKey(nz, t) == k {
      assert t in tracks;
    } else {
      VoteKeyOfVote(nz, tracks[1..], k, v);
      var u :| u in tracks[1..] && Votes(u) && RatingKey(nz, u) == k;
      assert u in tracks;
    }
  }
}

=== FILE: matching.dfy ===
/** The importer's track-matching cascade (migrate.py): a legacy library path and
    its tags are looked up in the media-file table by exact path variant, by
    case-insensitive path, by exact normalised (title, artist, album) and
    finally by a fuzzy title prefix within the same artist and album. */
module Matching {
  import opened Common
  import opened AssocList
  import opened Normalize

  /** One `media_file` row: id, path and tags (a NULL tag reads as empty). */
  datatype MediaFile = MediaFile(id: string, path: string, title: string, artist: string, album: string)

  /** A normalised (title, artist, album) key. */
  datatype MetaKey = MetaKey(title: string, artist: string, album: string)

  function KeyOf(nz: Normalizers, title: string, artist: string, album: string): MetaKey
  {
    MetaKey(Title(nz, title), Field(nz, artist), Field(nz, album))
  }

  function MetaOf(nz: Normalizers, f: MediaFile): MetaKey
  {
    KeyOf(nz, f.title, f.artist, f.album)
  }

  /** The three lookup tables built before matching. */
  datatype Indexes = Indexes(
    paths: Dict<string, string>,              // path -> id
    caseless: Dict<string, (string, string)>, // folded path -> (path, id)
    metadata: Dict<MetaKey, string>)          // normalised tags -> id

  function PathIndex(files: seq<MediaFile>): Dict<string, string>
  {
    FromPairs(MapSeq(files, (f: MediaFile) => (f.path, f.id)))
  }

  /** `_build_case_insensitive_index`, over the path table's items. */
  function CaselessIndex(nz: Normalizers, paths: Dict<string, string>): (r: Dict<string, (string, string)>)
    ensures KeysDistinct(r)
    ensures forall p :: p in r ==> p.1 in paths && p.0 == Fold(nz, p.1.0)
  {
    FromPairs(MapSeq(paths, (e: (string, string)) => (Fold(nz, e.0), e)))
  }

  /** `_build_metadata_index`. */
  function MetadataIndex(nz: Normalizers, files: seq<MediaFile>): (r: Dict<MetaKey, string>)
    ensures KeysDistinct(r)
    ensures forall p :: p in r ==> exists f :: f in files && p == (MetaOf(nz, f), f.id)
  {
    FromPairs(MapSeq(files, (f: MediaFile) => (MetaOf(nz, f), f.id)))
  }

  function BuildIndexes(nz: Normalizers, files: seq<MediaFile>): Indexes
  {
    var paths := PathIndex(files);
    Indexes(paths, CaselessIndex(nz, paths), MetadataIndex(nz, files))
  }

  /** The fuzzy test: same artist and album, and one title a prefix of the other. */
  predicate Fits(entry: MetaKey, key: MetaKey)
  {
    && entry.artist == key.artist
    && entry.album == key.album
    && (key.title <= entry.title || entry.title <= key.title)
  }

  datatype Method = ByPath | ByCaselessPath | ByMetadata | ByFuzzyMetadata

  datatype Match = Match(id: string, via: Method)

  function CaselessHit(nz: Normalizers, caseless: Dict<string, (string, string)>, v: string): Option<string>
  {
    match Get(caseless, Fold(nz, v))
    case Some(e) => Some(e.1)
    case None => None
  }

  function FuzzyHit(key: MetaKey, e: (MetaKey, string)): Option<string>
  {
    if Fits(e.0, key) then Some(e.1) else None
  }

  function PathStrategy(paths: Dict<string, string>, vs: seq<string>): Option<string>
  {
    FirstSome(vs, (v: string) => Get(paths, v))
  }

  function CaselessStrategy(nz: Normalizers, caseless: Dict<string, (string, string)>, vs: seq<string>): Option<string>
  {
    FirstSome(vs, (v: string) => CaselessHit(nz, caseless, v))
  }

  function FuzzyStrategy(metadata: Dict<MetaKey, string>, key: MetaKey): Option<string>
  {
    FirstSome(metadata, (e: (MetaKey, string)) => FuzzyHit(key, e))
  }

  /** The cascade for one legacy track: the first strategy that finds an id wins. */
  function MatchTrack(nz: Normalizers, ix: Indexes, path: string, title: string, artist: string, album: string): (r: Option<Match>)
    ensures PathStrategy(ix.paths, PathVariants(nz, path)).Some? <==> r.Some? && r.value.via == ByPath
  {
    var vs := PathVariants(nz, path);
    var key := KeyOf(nz, title, artist, album);
    match PathStrategy(ix.paths, vs)
    case Some(id) => Some(Match(id, ByPath))
    case None =>
      match CaselessStrategy(nz, ix.caseless, vs)
      case Some(id) => Some(Match(id, ByCaselessPath))
      case None =>
        match Get(ix.metadata, key)
        case Some(id) => Some(Match(id, ByMetadata))
        case None =>
          match FuzzyStrategy(ix.metadata, key)
          case Some(id) => Some(Match(id, ByFuzzyMetadata))
          case None => None
  }

  // ---------------------------------------------------------------------------
  // What each strategy finds, stated on the media-file rows
  // ---------------------------------------------------------------------------

  /** `f` lies at one of the path variants. */
  ghost predicate AtVariant(nz: Normalizers, path: string, f: MediaFile)
  {
    f.path in PathVariants(nz, path)
  }

  /** `f`'s path folds to the fold of one of the path variants. */
  ghost predicate AtCaselessVariant(nz: Normalizers, path: string, f: MediaFile)
  {
    exists v :: v in PathVariants(nz, path) && Fold(nz, f.path) == Fold(nz, v)
  }

  /** Why a match by `via` is justified by the row `f`. */
  ghost predicate Justifies(nz: Normalizers, path: string, key: MetaKey, f: MediaFile, via: Method)
  {
    match via
    case ByPath => AtVariant(nz, path, f)
    case ByCaselessPath => AtCaselessVariant(nz, path, f)
    case ByMetadata => MetaOf(nz, f) == key
    case ByFuzzyMetadata => Fits(MetaOf(nz, f), key)
  }

  lemma PathIndexItem(files: seq<MediaFile>, e: (string, string))
    requires e in PathIndex(files)
    ensures exists f :: f in files && e == (f.path, f.id)
  {
  }

  lemma PathIndexHas(files: seq<MediaFile>, f: MediaFile)
    requires f in files
    ensures f.path in Keys(PathIndex(files))
  {
    var kvs := MapSeq(files, (f: MediaFile) => (f.path, f.id));
    assert (f.path, f.id) in kvs;
    assert f.path in Keys(kvs);
  }

  lemma CaselessItem(nz: Normalizers, files: seq<MediaFile>, k: string, e: (string, string))
    requires (k, e) in CaselessIndex(nz, PathIndex(files))
    ensures exists f :: f in files && e == (f.path, f.id) && k == Fold(nz, f.path)
  {
    assert e in PathIndex(files);
    PathIndexItem(files, e);
  }

  lemma CaselessHas(nz: Normalizers, files: seq<MediaFile>, f: MediaFile)
    requires f in files
    ensures Fold(nz, f.path) in Keys(CaselessIndex(nz, PathIndex(files)))
  {
    var paths := PathIndex(files);
    PathIndexHas(files, f);
    var e :| e in paths && e.0 == f.path;
    var kvs := MapSeq(paths, (e: (string, string)) => (Fold(nz, e.0), e));
    assert (Fold(nz, f.path), e) in kvs;
    assert Fold(nz, f.path) in Keys(kvs);
  }

  lemma MetadataItem(nz: Normalizers, files: seq<MediaFile>, e: (MetaKey, string))
    requires e in MetadataIndex(nz, files)
    ensures exists f :: f in files && e == (MetaOf(nz, f), f.id)
  {
  }

  lemma MetadataHas(nz: Normalizers, files: seq<MediaFile>, f: MediaFile)
    requires f in files
    ensures MetaOf(nz, f) in Keys(MetadataIndex(nz, files))
  {
    var kvs := MapSeq(files, (f: MediaFile) => (MetaOf(nz, f), f.id));
    assert (MetaOf(nz, f), f.id) in kvs;
    assert MetaOf(nz, f) in Keys(kvs);
  }

  lemma PathHit(files: seq<MediaFile>, v: string)
    requires Get(PathIndex(files), v).Some?
    ensures exists f :: f in files && f.path == v && f.id == Get(PathIndex(files), v).value
  {
    var id := Get(PathIndex(files), v).value;
    PathIndexItem(files, (v, id));
  }

  lemma PathStrategySound(nz: Normalizers, files: seq<MediaFile>, path: string)
    requires PathStrategy(PathIndex(files), PathVariants(nz, path)).Some?
    ensures exists f :: f in files && AtVariant(nz, path, f)
                     && f.id == PathStrategy(PathIndex(files), PathVariants(nz, path)).value
  {
    var vs := PathVariants(nz, path);
    var r := PathStrategy(PathIndex(files), vs);
    var i :| 0 <= i < |vs| && Get(PathIndex(files), vs[i]) == r;
    PathHit(files, vs[i]);
    var f :| f in files && f.path == vs[i] && f.id == r.value;
    assert f.path in vs;
  }

  lemma PathStrategyComplete(nz: Normalizers, files: seq<MediaFile>, path: string, f: MediaFile)
    requires f in files && AtVariant(nz, path, f)
    ensures PathStrategy(PathIndex(files), PathVariants(nz, path)).Some?
  {
    var paths := PathIndex(files);
    var vs := PathVariants(nz, path);
    PathIndexHas(files, f);
    var i :| 0 <= i < |vs| && vs[i] == f.path;
    assert Get(paths, vs[i]).Some?;
  }

  /** The exact-path step finds an id exactly when some row lies at a path
      variant, and the id it finds is such a row's. */
  lemma PathStrategyExact(nz: Normalizers, files: seq<MediaFile>, path: string)
    ensures var r := PathStrategy(PathIndex(files), PathVariants(nz, path));
      && (r.Some? <==> exists f :: f in files && AtVariant(nz, path, f))
      && (r.Some? ==> exists f :: f in files && AtVariant(nz, path, f) && f.id == r.value)
  {
    if PathStrategy(PathIndex(files), PathVariants(nz, path)).Some? {
      PathStrategySound(nz, files, path);
    }
    if exists f :: f in files && AtVariant(nz, path, f) {
      var f :| f in files && AtVariant(nz, path, f);
      PathStrategyComplete(nz, files, path, f);
    }
  }

  lemma CaselessStrategySound(nz: Normalizers, files: seq<MediaFile>, path: string)
    requires CaselessStrategy(nz, CaselessIndex(nz, PathIndex(files)), PathVariants(nz, path)).Some?
    ensures exists f :: f in files && AtCaselessVariant(nz, path, f)
                     && f.id == CaselessStrategy(nz, CaselessIndex(nz, PathIndex(files)), PathVariants(nz, path)).value
  {
    var caseless := CaselessIndex(nz, PathIndex(files));
    var vs := PathVariants(nz, path);
    var r := FirstSome(vs, (v: string) => CaselessHit(nz, caseless, v));
    var i :| 0 <= i < |vs| && CaselessHit(nz, caseless, vs[i]) == r;
    CaselessHitSound(nz, files, vs[i]);
    var f :| f in files && Fold(nz, f.path) == Fold(nz, vs[i]) && f.id == r.value;
    assert vs[i] in vs;
    assert AtCaselessVariant(nz, path, f);
  }

  lemma CaselessHitSound(nz: Normalizers, files: seq<MediaFile>, v: string)
    requires CaselessHit(nz, CaselessIndex(nz, PathIndex(files)), v).Some?
    ensures exists f :: f in files && Fold(nz, f.path) == Fold(nz, v)
                     && f.id == CaselessHit(nz, CaselessIndex(nz, PathIndex(files)), v).value
  {
    var caseless := CaselessIndex(nz, PathIndex(files));
    var e := Get(caseless, Fold(nz, v)).value;
    assert (Fold(nz, v), e) in caseless;
    CaselessItem(nz, files, Fold(nz, v), e);
  }

  lemma CaselessStrategyComplete(nz: Normalizers, files: seq<MediaFile>, path: string, f: MediaFile)
    requires f in files && AtCaselessVariant(nz, path, f)
    ensures CaselessStrategy(nz, CaselessIndex(nz, PathIndex(files)), PathVariants(nz, path)).Some?
  {
    var v :| v in PathVariants(nz, path) && Fold(nz, f.path) == Fold(nz, v);
    CaselessVariantHit(nz, files, f, PathVariants(nz, path), v);
  }

  lemma CaselessVariantHit(nz: Normalizers, files: seq<MediaFile>, f: MediaFile, vs: seq<string>, v: string)
    requires f in files && v in vs && Fold(nz, f.path) == Fold(nz, v)
    ensures CaselessStrategy(nz, CaselessIndex(nz, PathIndex(files)), vs).Some?
  {
    var i :| 0 <= i < |vs| && vs[i] == v;
    CaselessHitComplete(nz, files, f, vs[i]);
    CaselessStrategyHit(nz, CaselessIndex(nz, PathIndex(files)), vs, i);
  }

  lemma CaselessStrategyHit(nz: Normalizers, caseless: Dict<string, (string, string)>, vs: seq<string>, i: int)
    requires 0 <= i < |vs| && CaselessHit(nz, caseless, vs[i]).Some?
    ensures CaselessStrategy(nz, caseless, vs).Some?
  {
    FirstSomeHit(vs, (v: string) => CaselessHit(nz, caseless, v), i);
  }

  lemma CaselessHitComplete(nz: Normalizers, files: seq<MediaFile>, f: MediaFile, v: string)
    requires f in files && Fold(nz, f.path) == Fold(nz, v)
    ensures CaselessHit(nz, CaselessIndex(nz, PathIndex(files)), v).Some?
  {
    CaselessHas(nz, files, f);
  }

  /** The case-insensitive step finds an id exactly when some row's path folds
      like a path variant, and the id it finds is such a row's. */
  lemma CaselessStrategyExact(nz: Normalizers, files: seq<MediaFile>, path: string)
    ensures var r := CaselessStrategy(nz, CaselessIndex(nz, PathIndex(files)), PathVariants(nz, path));
      && (r.Some? <==> exists f :: f in files && AtCaselessVariant(nz, path, f))
      && (r.Some? ==> exists f :: f in files && AtCaselessVariant(nz, path, f) && f.id == r.value)
  {
    if CaselessStrategy(nz, CaselessIndex(nz, PathIndex(files)), PathVariants(nz, path)).Some? {
      CaselessStrategySound(nz, files, path);
    }
    if exists f :: f in files && AtCaselessVariant(nz, path, f) {
      var f :| f in files && AtCaselessVariant(nz, path, f);
      CaselessStrategyComplete(nz, files, path, f);
    }
  }

  /** The exact-tag step finds an id exactly when some row has the same
      normalised tags, and the id it finds is such a row's. */
  lemma MetadataStrategyExact(nz: Normalizers, files: seq<MediaFile>, key: MetaKey)
    ensures var r := Get(MetadataIndex(nz, files), key);
      && (r.Some? <==> exists f :: f in files && MetaOf(nz, f) == key)
      && (r.Some? ==> exists f :: f in files && MetaOf(nz, f) == key && f.id == r.value)
  {
    var r := Get(MetadataIndex(nz, files), key);
    if r.Some? {
      MetadataItem(nz, files, (key, r.value));
    }
    if exists f :: f in files && MetaOf(nz, f) == key {
      var f :| f in files && MetaOf(nz, f) == key;
      MetadataHas(nz, files, f);
    }
  }

  lemma FuzzyStrategySound(nz: Normalizers, files: seq<MediaFile>, key: MetaKey)
    requires FuzzyStrategy(MetadataIndex(nz, files), key).Some?
    ensures exists f :: f in files && Fits(MetaOf(nz, f), key)
                     && f.id == FuzzyStrategy(MetadataIndex(nz, files), key).value
  {
    var meta := MetadataIndex(nz, files);
    var r := FirstSome(meta, (e: (MetaKey, string)) => FuzzyHit(key, e));
    var i :| 0 <= i < |meta| && FuzzyHit(key, meta[i]) == r;
    MetadataItem(nz, files, meta[i]);
  }

  lemma FuzzyStrategyComplete(nz: Normalizers, files: seq<MediaFile>, key: MetaKey, f: MediaFile)
    requires f in files && Fits(MetaOf(nz, f), key)
    ensures FuzzyStrategy(MetadataIndex(nz, files), key).Some?
  {
    var meta := MetadataIndex(nz, files);
    MetadataHas(nz, files, f);
    var i :| 0 <= i < |meta| && meta[i].0 == MetaOf(nz, f);
    assert FuzzyHit(key, meta[i]).Some?;
  }

  /** The fuzzy step finds an id exactly when some row fits, and the id it finds
      is a fitting row's. */
  lemma FuzzyStrategyExact(nz: Normalizers, files: seq<MediaFile>, key: MetaKey)
    ensures var r := FuzzyStrategy(MetadataIndex(nz, files), key);
      && (r.Some? <==> exists f :: f in files && Fits(MetaOf(nz, f), key))
      && (r.Some? ==> exists f :: f in files && Fits(MetaOf(nz, f), key) && f.id == r.value)
  {
    if FuzzyStrategy(MetadataIndex(nz, files), key).Some? {
      FuzzyStrategySound(nz, files, key);
    }
    if exists f :: f in files && Fits(MetaOf(nz, f), key) {
      var f :| f in files && Fits(MetaOf(nz, f), key);
      FuzzyStrategyComplete(nz, files, key, f);
    }
  }

  // ---------------------------------------------------------------------------
  // The cascade
  // ---------------------------------------------------------------------------

  /** Every match names the id of a media file that justifies the strategy reported. */
  lemma MatchSound(nz: Normalizers, files: seq<MediaFile>, path: string, title: string, artist: string, album: string)
    ensures var r := MatchTrack(nz, BuildIndexes(nz, files), path, title, artist, album);
      r.Some? ==> (exists f :: f in files && f.id == r.value.id
                                && Justifies(nz, path, KeyOf(nz, title, artist, album), f, r.value.via))
  {
    var ix := BuildIndexes(nz, files);
    var vs := PathVariants(nz, path);
    var key := KeyOf(nz, title, artist, album);
    var r := MatchTrack(nz, ix, path, title, artist, album);
    if r.Some? {
      MatchTrackVia(nz, ix, path, title, artist, album);
      var f := Witness(nz, files, path, key, r.value);
    }
  }

  /** A row justifying an id that the strategy named by `m.via` found. */
  lemma Witness(nz: Normalizers, files: seq<MediaFile>, path: string, key: MetaKey, m: Match) returns (f: MediaFile)
    requires match m.via
      case ByPath => PathStrategy(PathIndex(files), PathVariants(nz, path)) == Some(m.id)
      case ByCaselessPath => CaselessStrategy(nz, CaselessIndex(nz, PathIndex(files)), PathVariants(nz, path)) == Some(m.id)
      case ByMetadata => Get(MetadataIndex(nz, files), key) == Some(m.id)
      case ByFuzzyMetadata => FuzzyStrategy(MetadataIndex(nz, files), key) == Some(m.id)
    ensures f in files && f.id == m.id && Justifies(nz, path, key, f, m.via)
  {
    match m.via
    case ByPath =>
      PathStrategySound(nz, files, path);
      f :| f in files && AtVariant(nz, path, f) && f.id == m.id;
    case ByCaselessPath =>
      CaselessStrategySound(nz, files, path);
      f :| f in files && AtCaselessVariant(nz, path, f) && f.id == m.id;
    case ByMetadata =>
      MetadataItem(nz, files, (key, m.id));
      f :| f in files && (key, m.id) == (MetaOf(nz, f), f.id);
    case ByFuzzyMetadata =>
      FuzzyStrategySound(nz, files, key);
      f :| f in files && Fits(MetaOf(nz, f), key) && f.id == m.id;
  }

  /** Which strategy a match reports: the first one, in the cascade's order,
      that answers, and the id is that strategy's own answer. */
  lemma MatchTrackVia(nz: Normalizers, ix: Indexes, path: string, title: string, artist: string, album: string)
    ensures var r := MatchTrack(nz, ix, path, title, artist, album);
      var vs := PathVariants(nz, path);
      var key := KeyOf(nz, title, artist, album);
      r.Some? ==> match r.value.via
        case ByPath => PathStrategy(ix.paths, vs) == Some(r.value.id)
        case ByCaselessPath =>
          && PathStrategy(ix.paths, vs).None?
          && CaselessStrategy(nz, ix.caseless, vs) == Some(r.value.id)
        case ByMetadata =>
          && PathStrategy(ix.paths, vs).None? && CaselessStrategy(nz, ix.caseless, vs).None?
          && Get(ix.metadata, key) == Some(r.value.id)
        case ByFuzzyMetadata =>
          && PathStrategy(ix.paths, vs).None? && CaselessStrategy(nz, ix.caseless, vs).None?
          && Get(ix.metadata, key).None?
          && FuzzyStrategy(ix.metadata, key) == Some(r.value.id)
  {
  }

  /** No match means every strategy came back empty. */
  lemma MatchTrackNone(nz: Normalizers, ix: Indexes, path: string, title: string, artist: string, album: string)
    ensures var vs := PathVariants(nz, path);
      var key := KeyOf(nz, title, artist, album);
      MatchTrack(nz, ix, path, title, artist, album).None?
      <==> && PathStrategy(ix.paths, vs).None? && CaselessStrategy(nz, ix.caseless, vs).None?
           && Get(ix.metadata, key).None? && FuzzyStrategy(ix.metadata, key).None?
  {
  }

  /** A track stays unmatched exactly when no media file lies at a path that folds
      like one of its path variants and none fits its tags. */
  lemma UnmatchedExactly(nz: Normalizers, files: seq<MediaFile>, path: string, title: string, artist: string, album: string)
    ensures MatchTrack(nz, BuildIndexes(nz, files), path, title, artist, album).None?
        <==> forall f :: f in files ==>
               !AtCaselessVariant(nz, path, f) && !Fits(MetaOf(nz, f), KeyOf(nz, title, artist, album))
  {
    if MatchTrack(nz, BuildIndexes(nz, files), path, title, artist, album).None? {
      UnmatchedNoCandidate(nz, files, path, title, artist, album);
    } else {
      MatchedHasCandidate(nz, files, path, title, artist, album);
    }
  }

  lemma UnmatchedNoCandidate(nz: Normalizers, files: seq<MediaFile>, path: string, title: string, artist: string, album: string)
    requires MatchTrack(nz, BuildIndexes(nz, files), path, title, artist, album).None?
    ensures forall f :: f in files ==>
              !AtCaselessVariant(nz, path, f) && !Fits(MetaOf(nz, f), KeyOf(nz, title, artist, album))
  {
    var ix := BuildIndexes(nz, files);
    var vs := PathVariants(nz, path);
    var key := KeyOf(nz, title, artist, album);
    MatchTrackNone(nz, ix, path, title, artist, album);
    forall f | f in files ensures !AtCaselessVariant(nz, path, f) && !Fits(MetaOf(nz, f), key) {
      if AtCaselessVariant(nz, path, f) {
        CaselessStrategyComplete(nz, files, path, f);
      }
      if Fits(MetaOf(nz, f), key) {
        FuzzyStrategyComplete(nz, files, key, f);
      }
    }
  }

  lemma MatchedHasCandidate(nz: Normalizers, files: seq<MediaFile>, path: string, title: string, artist: string, album: string)
    requires MatchTrack(nz, BuildIndexes(nz, files), path, title, artist, album).Some?
    ensures exists f :: f in files &&
              (AtCaselessVariant(nz, path, f) || Fits(MetaOf(nz, f), KeyOf(nz, title, artist, album)))
  {
    var ix := BuildIndexes(nz, files);
    var vs := PathVariants(nz, path);
    var key := KeyOf(nz, title, artist, album);
    MatchTrackNone(nz, ix, path, title, artist, album);
    if PathStrategy(ix.paths, vs).Some? {
      PathStrategySound(nz, files, path);
      var f :| f in files && AtVariant(nz, path, f) && f.id == PathStrategy(ix.paths, vs).value;
      VariantFoldsLikeVariant(nz, path, f);
    } else if CaselessStrategy(nz, ix.caseless, vs).Some? {
      CaselessStrategySound(nz, files, path);
    } else if Get(ix.metadata, key).Some? {
      MetadataItem(nz, files, (key, Get(ix.metadata, key).value));
      var f :| f in files && (key, Get(ix.metadata, key).value) == (MetaOf(nz, f), f.id);
      assert Fits(MetaOf(nz, f), key);
    } else {
      assert FuzzyStrategy(ix.metadata, key).Some?;
      FuzzyStrategySound(nz, files, key);
    }
  }

  lemma VariantFoldsLikeVariant(nz: Normalizers, path: string, f: MediaFile)
    requires AtVariant(nz, path, f)
    ensures AtCaselessVariant(nz, path, f)
  {
    assert f.path in PathVariants(nz, path) && Fold(nz, f.path) == Fold(nz, f.path);
  }

  /** A media file at any path variant makes the match an exact-path one. */
  lemma PathFirst(nz: Normalizers, files: seq<MediaFile>, path: string, title: string, artist: string, album: string, f: MediaFile)
    requires f in files && AtVariant(nz, path, f)
    ensures var r := MatchTrack(nz, BuildIndexes(nz, files), path, title, artist, album);
      r.Some? && r.value.via == ByPath
  {
    PathStrategyComplete(nz, files, path, f);
    MatchTrackByPath(nz, BuildIndexes(nz, files), path, title, artist, album);
  }

  lemma MatchTrackByPath(nz: Normalizers, ix: Indexes, path: string, title: string, artist: string, album: string)
    requires PathStrategy(ix.paths, PathVariants(nz, path)).Some?
    ensures MatchTrack(nz, ix, path, title, artist, album)
         == Some(Match(PathStrategy(ix.paths, PathVariants(nz, path)).value, ByPath))
  {
  }

  /** A media file at the legacy path itself is matched by it, and the id used is
      that of the last row at the path. */
  lemma RawPathWins(nz: Normalizers, files: seq<MediaFile>, path: string, title: string, artist: string, album: string)
    requires exists f :: f in files && f.path == path
    ensures MatchTrack(nz, BuildIndexes(nz, files), path, title, artist, album)
            == Some(Match(LastIdAt(files, path).value, ByPath))
  {
    var ix := BuildIndexes(nz, files);
    var vs := PathVariants(nz, path);
    PathIndexGet(files, path);
    assert Get(ix.paths, vs[0]).Some?;
  }

  /** Reference reading of the path table: the id of the last row at `p`. */
  function LastIdAt(files: seq<MediaFile>, p: string): (r: Option<string>)
    ensures r.Some? <==> exists f :: f in files && f.path == p
  {
    if |files| == 0 then None
    else
      var n := |files| - 1;
      assert forall u :: u in files <==> u in files[..n] || u == files[n] by {
        assert files == files[..n] + [files[n]];
      }
      if files[n].path == p then Some(files[n].id) else LastIdAt(files[..n], p)
  }

  /** The path table reads back the id of the last row at each path. */
  lemma PathIndexGet(files: seq<MediaFile>, p: string)
    ensures Get(PathIndex(files), p) == LastIdAt(files, p)
  {
    var kvs := MapSeq(files, (f: MediaFile) => (f.path, f.id));
    FromPairsGet(kvs, p);
    LastAssignedPaths(files, p);
  }

  lemma {:induction false} LastAssignedPaths(files: seq<MediaFile>, p: string)
    ensures LastAssigned(MapSeq(files, (f: MediaFile) => (f.path, f.id)), p) == LastIdAt(files, p)
  {
    if |files| > 0 {
      var n := |files| - 1;
      var kvs := MapSeq(files, (f: MediaFile) => (f.path, f.id));
      assert kvs[..n] == MapSeq(files[..n], (f: MediaFile) => (f.path, f.id));
      LastAssignedPaths(files[..n], p);
    }
  }

  /** An empty title is a prefix of every title, so a track without one matches
      (fuzzily, if nothing earlier does) any media file of the same artist and
      album. */
  lemma EmptyTitleMatchesAlbum(nz: Normalizers, files: seq<MediaFile>, path: string, artist: string, album: string, f: MediaFile)
    requires f in files && Field(nz, f.artist) == Field(nz, artist) && Field(nz, f.album) == Field(nz, album)
    ensures MatchTrack(nz, BuildIndexes(nz, files), path, "", artist, album).Some?
  {
    UnmatchedExactly(nz, files, path, "", artist, album);
    assert Fits(MetaOf(nz, f), KeyOf(nz, "", artist, album));
  }
}

=== FILE: migration.dfy ===
/** The importer's track pass (migrate.py `migrate_to_navidrome`): every legacy
    track with statistics is matched against the media-file table; a matched
    track's annotation is merged, an unmatched one is reported. Also the
    date-added pass, which reuses the cascade, and the ordering of the report. */
module Migration {
  import opened Common
  import opened AssocList
  import opened Normalize
  import opened Ratings
  import opened Annotations
  import opened Library
  import opened Matching

  /** A reported unmatched track. */
  datatype Unmatched = Unmatched(path: string, title: string, artist: string, album: string, playCount: int, rating: int)

  /** The state the track loop carries: the annotation table, the first media
      file matched for each legacy path, the unmatched report and the counters. */
  datatype TrackRun = TrackRun(
    db: Db,
    pathToId: Dict<string, string>,
    unmatched: seq<Unmatched>,
    matched: nat,
    inserted: nat,
    updated: nat)

  function UnmatchedOf(e: (string, TrackStats)): Unmatched
  {
    Unmatched(e.0, e.1.title, e.1.artist, e.1.album, e.1.playCount, e.1.rating)
  }

  /** How one parsed entry is matched. The loops below take this as a parameter;
      the importer's choice is `Cascade`. */
  type Matcher = ((string, TrackStats)) -> Option<Match>

  /** The matching cascade over the indexes, applied to an entry's path and tags. */
  function Cascade(nz: Normalizers, ix: Indexes): Matcher
  {
    (e: (string, TrackStats)) => MatchTrack(nz, ix, e.0, e.1.title, e.1.artist, e.1.album)
  }

  /** One iteration of the track loop. */
  function Step(cascade: Matcher, user: string, run: TrackRun, e: (string, TrackStats)): TrackRun
  {
    match cascade(e)
    case None => run.(unmatched := run.unmatched + [UnmatchedOf(e)])
    case Some(m) =>
      var key := AnnKey(user, m.id, ItemType.MediaFile);
      run.(db := UpsertTrack(run.db, key, e.1.playCount, e.1.rating, e.1.playDate),
           pathToId := if e.0 in Keys(run.pathToId) then run.pathToId else Put(run.pathToId, e.0, m.id),
           matched := run.matched + 1,
           inserted := if key in run.db then run.inserted else run.inserted + 1,
           updated := if key in run.db then run.updated + 1 else run.updated)
  }

  /** The track loop over the parsed data, from an empty report. Every entry is
      counted once as matched or unmatched, every match as an insert or an
      update, and only the user's track annotations are written. */
  function MigrateTracks(cascade: Matcher, user: string, db: Db, data: Dict<string, TrackStats>): (r: TrackRun)
    ensures r.matched + |r.unmatched| == |data|
    ensures r.inserted + r.updated == r.matched
    ensures db.Keys <= r.db.Keys
    ensures forall k :: k in r.db && k !in db ==> k.user == user && k.kind == ItemType.MediaFile
    ensures forall k :: k in db && !(k.user == user && k.kind == ItemType.MediaFile) ==> r.db[k] == db[k]
  {
    if |data| == 0 then TrackRun(db, [], [], 0, 0, 0)
    else
      var n := |data| - 1;
      Step(cascade, user, MigrateTracks(cascade, user, db, data[..n]), data[n])
  }

  /** Existing annotations are never lowered by the track pass. */
  lemma {:induction false} MigrateTracksMonotone(cascade: Matcher, user: string, db: Db, data: Dict<string, TrackStats>, k: AnnKey)
    requires k in db
    ensures var r := MigrateTracks(cascade, user, db, data).db;
      Plays(r[k]) >= Plays(db[k]) && Stars(r[k]) >= Stars(db[k])
  {
    if |data| > 0 {
      var n := |data| - 1;
      MigrateTracksMonotone(cascade, user, db, data[..n], k);
    }
  }

  /** Every matched entry's annotation ends with at least the entry's plays and
      converted rating, whatever later entries matched to the same file bring. */
  lemma {:induction false} MigrateTracksCovers(cascade: Matcher, user: string, db: Db, data: Dict<string, TrackStats>, i: int)
    requires 0 <= i < |data| && cascade(data[i]).Some?
    ensures var key := AnnKey(user, cascade(data[i]).value.id, ItemType.MediaFile);
      var r := MigrateTracks(cascade, user, db, data).db;
      key in r && Plays(r[key]) >= data[i].1.playCount && Stars(r[key]) >= ConvertRating(data[i].1.rating)
  {
    var n := |data| - 1;
    var key := AnnKey(user, cascade(data[i]).value.id, ItemType.MediaFile);
    var prev := MigrateTracks(cascade, user, db, data[..n]);
    if i < n {
      assert data[..n][i] == data[i];
      MigrateTracksCovers(cascade, user, db, data[..n], i);
      StepKeeps(cascade, user, prev, data[n], key, data[i].1.playCount, ConvertRating(data[i].1.rating));
    } else {
      StepCovers(cascade, user, prev, data[n]);
    }
  }

  /** A step never lowers a row's counters below given bounds. */
  lemma StepKeeps(cascade: Matcher, user: string, run: TrackRun, e: (string, TrackStats),
                  key: AnnKey, plays: int, stars: int)
    requires key in run.db && Plays(run.db[key]) >= plays && Stars(run.db[key]) >= stars
    ensures var r := Step(cascade, user, run, e).db;
      key in r && Plays(r[key]) >= plays && Stars(r[key]) >= stars
  {
    match cascade(e)
    case Some(m) =>
      var key' := AnnKey(user, m.id, ItemType.MediaFile);
      assert Step(cascade, user, run, e).db == UpsertTrack(run.db, key', e.1.playCount, e.1.rating, e.1.playDate);
    case None =>
  }

  /** A matched step leaves the entry's row with at least its own values. */
  lemma StepCovers(cascade: Matcher, user: string, run: TrackRun, e: (string, TrackStats))
    requires cascade(e).Some?
    ensures var key := AnnKey(user, cascade(e).value.id, ItemType.MediaFile);
      var r := Step(cascade, user, run, e).db;
      key in r && Plays(r[key]) >= e.1.playCount && Stars(r[key]) >= ConvertRating(e.1.rating)
  {
    var key := AnnKey(user, cascade(e).value.id, ItemType.MediaFile);
    assert Step(cascade, user, run, e).db == UpsertTrack(run.db, key, e.1.playCount, e.1.rating, e.1.playDate);
  }

  /** Every annotation the pass wrote has its starred flag agreeing with its
      counters; the others are as they were. */
  lemma {:induction false} MigrateTracksStarred(cascade: Matcher, user: string, db: Db, data: Dict<string, TrackStats>, k: AnnKey)
    requires k in MigrateTracks(cascade, user, db, data).db
    ensures var r := MigrateTracks(cascade, user, db, data).db;
      (k in db && r[k] == db[k]) || StarredConsistent(r[k])
  {
    if |data| > 0 {
      var n := |data| - 1;
      var prev := MigrateTracks(cascade, user, db, data[..n]);
      if k in prev.db {
        MigrateTracksStarred(cascade, user, db, data[..n], k);
      }
    }
  }

  /** The report lists exactly the entries the cascade could not match, in order. */
  lemma {:induction false} MigrateTracksUnmatched(cascade: Matcher, user: string, db: Db, data: Dict<string, TrackStats>)
    ensures MigrateTracks(cascade, user, db, data).unmatched == UnmatchedIn(cascade, data)
  {
    if |data| > 0 {
      var n := |data| - 1;
      MigrateTracksUnmatched(cascade, user, db, data[..n]);
      StepUnmatched(cascade, user, MigrateTracks(cascade, user, db, data[..n]), data[n]);
    }
  }

  lemma StepUnmatched(cascade: Matcher, user: string, run: TrackRun, e: (string, TrackStats))
    ensures Step(cascade, user, run, e).unmatched
         == run.unmatched + (if cascade(e).None? then [UnmatchedOf(e)] else [])
  {
  }

  /** Only matched entries create annotations: every new row belongs to the file
      some entry was matched to. */
  lemma {:induction false} MigrateTracksKeys(cascade: Matcher, user: string, db: Db, data: Dict<string, TrackStats>, k: AnnKey)
    requires k in MigrateTracks(cascade, user, db, data).db && k !in db
    ensures exists e :: e in data && cascade(e).Some? && k == AnnKey(user, cascade(e).value.id, ItemType.MediaFile)
  {
    var n := |data| - 1;
    var prev := MigrateTracks(cascade, user, db, data[..n]);
    assert data == data[..n] + [data[n]];
    if k in prev.db {
      MigrateTracksKeys(cascade, user, db, data[..n], k);
      var e :| e in data[..n] && cascade(e).Some? && k == AnnKey(user, cascade(e).value.id, ItemType.MediaFile);
      assert e in data;
    } else {
      assert data[n] in data;
    }
  }

  /** No media file lies at a path folding like one of the entry's path variants,
      and none fits its tags. */
  ghost predicate Unmatchable(nz: Normalizers, files: seq<MediaFile>, e: (string, TrackStats))
  {
    forall f :: f in files ==>
      !AtCaselessVariant(nz, e.0, f) && !Fits(MetaOf(nz, f), KeyOf(nz, e.1.title, e.1.artist, e.1.album))
  }

  /** With the importer's cascade, a legacy track is reported unmatched exactly
      when it is unmatchable. */
  lemma UnmatchedReportExact(nz: Normalizers, files: seq<MediaFile>, user: string, db: Db,
                             data: Dict<string, TrackStats>, u: Unmatched)
    ensures u in MigrateTracks(Cascade(nz, BuildIndexes(nz, files)), user, db, data).unmatched
        <==> exists e :: e in data && u == UnmatchedOf(e) && Unmatchable(nz, files, e)
  {
    var cascade := Cascade(nz, BuildIndexes(nz, files));
    MigrateTracksUnmatched(cascade, user, db, data);
    forall e | e in data ensures cascade(e).None? <==> Unmatchable(nz, files, e) {
      CascadeNoneExactly(nz, files, e);
    }
  }

  lemma CascadeNoneExactly(nz: Normalizers, files: seq<MediaFile>, e: (string, TrackStats))
    ensures Cascade(nz, BuildIndexes(nz, files))(e).None? <==> Unmatchable(nz, files, e)
  {
    UnmatchedExactly(nz, files, e.0, e.1.title, e.1.artist, e.1.album);
  }

  /** Reference: the entries of `data` the cascade cannot match, in order. */
  function UnmatchedIn(cascade: Matcher, data: Dict<string, TrackStats>): (r: seq<Unmatched>)
    ensures forall u :: u in r <==> exists e :: e in data && cascade(e).None? && u == UnmatchedOf(e)
  {
    if |data| == 0 then []
    else
      var n := |data| - 1;
      assert forall e :: e in data <==> e in data[..n] || e == data[n] by {
        assert data == data[..n] + [data[n]];
      }
      UnmatchedIn(cascade, data[..n]) + (if cascade(data[n]).None? then [UnmatchedOf(data[n])] else [])
  }

  /** The path map holds a legacy path exactly when an entry at that path was
      matched, and then names the file its first matched entry was matched to. */
  lemma {:induction false} MigrateTracksPaths(cascade: Matcher, user: string, db: Db, data: Dict<string, TrackStats>, p: string)
    ensures var m := MigrateTracks(cascade, user, db, data).pathToId;
      Get(m, p) == FirstMatchAt(cascade, data, p)
  {
    if |data| > 0 {
      var n := |data| - 1;
      var prev := MigrateTracks(cascade, user, db, data[..n]);
      MigrateTracksPaths(cascade, user, db, data[..n], p);
      PathMapDistinct(cascade, user, db, data[..n]);
      match cascade(data[n])
      case Some(m) =>
        if data[n].0 !in Keys(prev.pathToId) {
          GetPut(prev.pathToId, data[n].0, m.id, p);
        }
      case None =>
    }
  }

  lemma {:induction false} PathMapDistinct(cascade: Matcher, user: string, db: Db, data: Dict<string, TrackStats>)
    ensures KeysDistinct(MigrateTracks(cascade, user, db, data).pathToId)
  {
    if |data| > 0 {
      var n := |data| - 1;
      var prev := MigrateTracks(cascade, user, db, data[..n]);
      PathMapDistinct(cascade, user, db, data[..n]);
      match cascade(data[n])
      case Some(m) =>
        PutDistinct(prev.pathToId, data[n].0, m.id);
      case None =>
    }
  }

  /** Reference: the id of the first entry at path `p` that matched. */
  function FirstMatchAt(cascade: Matcher, data: Dict<string, TrackStats>, p: string): (r: Option<string>)
    ensures r.Some? <==> exists e :: e in data && e.0 == p && cascade(e).Some?
    ensures r.Some? ==> exists e :: e in data && e.0 == p && cascade(e).Some? && cascade(e).value.id == r.value
  {
    if |data| == 0 then None
    else
      var n := |data| - 1;
      var prev := FirstMatchAt(cascade, data[..n], p);
      assert forall e :: e in data <==> e in data[..n] || e == data[n] by {
        assert data == data[..n] + [data[n]];
      }
      if prev.Some? then prev
      else if data[n].0 == p && cascade(data[n]).Some? then Some(cascade(data[n]).value.id)
      else None
  }

  // ---------------------------------------------------------------------------
  // Date added
  // ---------------------------------------------------------------------------

  /** `_migrate_date_added`: for each entry with a date added whose cascade finds
      a non-empty id, the (media file id, date) update, in order. */
  function DateAddedUpdates(cascade: Matcher, data: Dict<string, TrackStats>): (r: seq<(string, string)>)
    ensures |r| <= |data|
    ensures forall u :: u in r <==>
      exists e :: e in data && e.1.dateAdded == Some(u.1)
                  && cascade(e).Some? && cascade(e).value.id == u.0 && u.0 != ""
  {
    if |data| == 0 then []
    else
      var n := |data| - 1;
      var e := data[n];
      assert forall x :: x in data <==> x in data[..n] || x == e by {
        assert data == data[..n] + [e];
      }
      var m := cascade(e);
      DateAddedUpdates(cascade, data[..n])
        + (if e.1.dateAdded.Some? && m.Some? && m.value.id != "" then [(m.value.id, e.1.dateAdded.value)] else [])
  }

  /** The updates follow the data's order: those of a concatenation are those of
      its halves, concatenated. So when two entries resolve to one media file,
      the later entry's UPDATE is issued last and decides its `created_at`. */
  lemma {:induction false} DateAddedUpdatesAppend(cascade: Matcher, a: Dict<string, TrackStats>, b: Dict<string, TrackStats>)
    ensures DateAddedUpdates(cascade, a + b) == DateAddedUpdates(cascade, a) + DateAddedUpdates(cascade, b)
  {
    if |b| == 0 {
      assert a + b == a;
    } else {
      var n := |b| - 1;
      assert (a + b)[..|a + b| - 1] == a + b[..n];
      assert (a + b)[|a + b| - 1] == b[n];
      DateAddedUpdatesAppend(cascade, a, b[..n]);
    }
  }

  // ---------------------------------------------------------------------------
  // The unmatched report
  // ---------------------------------------------------------------------------

  ghost predicate MostPlayedFirst(s: seq<Unmatched>)
  {
    forall i, j :: 0 <= i < j < |s| ==> s[i].playCount >= s[j].playCount
  }

  /** The tracks of `s` with exactly `c` plays, in order. */
  function WithPlays(s: seq<Unmatched>, c: int): seq<Unmatched>
  {
    if |s| == 0 then []
    else (if s[0].playCount == c then [s[0]] else []) + WithPlays(s[1..], c)
  }

  /** `x` goes before the first track with no more plays than it has. */
  function InsertByPlays(x: Unmatched, s: seq<Unmatched>): (r: seq<Unmatched>)
    ensures multiset(r) == multiset(s) + multiset{x}
    ensures |r| == |s| + 1
    ensures r[0] == x || (|s| > 0 && r[0] == s[0])
  {
    if |s| == 0 || x.playCount >= s[0].playCount then [x] + s
    else
      var rest := InsertByPlays(x, s[1..]);
      assert s == [s[0]] + s[1..];
      [s[0]] + rest
  }

  /** `get_unmatched_tracks`: `sorted(unmatched, key=-play_count)`, most played
      first; being a stable sort, tracks with equal plays keep their order. */
  function SortUnmatched(s: seq<Unmatched>): (r: seq<Unmatched>)
    ensures multiset(r) == multiset(s)
    ensures MostPlayedFirst(r)
  {
    if |s| == 0 then []
    else
      assert s == [s[0]] + s[1..];
      InsertByPlaysSorted(s[0], SortUnmatched(s[1..]));
      InsertByPlays(s[0], SortUnmatched(s[1..]))
  }

  /** Inserting into a most-played-first list keeps it most played first. */
  lemma {:induction false} InsertByPlaysSorted(x: Unmatched, s: seq<Unmatched>)
    requires MostPlayedFirst(s)
    ensures MostPlayedFirst(InsertByPlays(x, s))
  {
    var r := InsertByPlays(x, s);
    if |s| == 0 || x.playCount >= s[0].playCount {
      assert r == [x] + s;
      forall i, j | 0 <= i < j < |r| ensures r[i].playCount >= r[j].playCount {
        assert r[j] == s[j - 1];
        if i > 0 {
          assert r[i] == s[i - 1];
        } else if j > 1 {
          assert s[0].playCount >= s[j - 1].playCount;
        }
      }
    } else {
      InsertByPlaysSorted(x, s[1..]);
      var rest := InsertByPlays(x, s[1..]);
      assert r == [s[0]] + rest;
      forall i, j | 0 <= i < j < |r| ensures r[i].playCount >= r[j].playCount {
        var y := rest[j - 1];
        assert r[j] == y;
        if i > 0 {
          assert r[i] == rest[i - 1];
        } else {
          assert y in multiset(rest);
          if y != x {
            assert y in multiset(s[1..]);
            var k :| 0 <= k < |s[1..]| && s[1..][k] == y;
            assert s[k + 1] == y;
          }
        }
      }
    }
  }

  lemma {:induction false} InsertByPlaysStable(x: Unmatched, s: seq<Unmatched>, c: int)
    ensures WithPlays(InsertByPlays(x, s), c) == WithPlays([x] + s, c)
  {
    if |s| > 0 && x.playCount < s[0].playCount {
      InsertByPlaysStable(x, s[1..], c);
      var r := InsertByPlays(x, s);
      assert r[1..] == InsertByPlays(x, s[1..]);
      assert ([x] + s[1..])[1..] == s[1..];
      assert ([x] + s)[1..] == s;
      if x.playCount == c {
        // every track passed over has more plays than `x`, so none has `c`
        assert WithPlays(s, c) == WithPlays(s[1..], c);
      }
    }
  }

  /** The sort is stable: the tracks with any given play count appear in the
      report in the order they were met. */
  lemma {:induction false} SortUnmatchedStable(s: seq<Unmatched>, c: int)
    ensures WithPlays(SortUnmatched(s), c) == WithPlays(s, c)
  {
    if |s| > 0 {
      SortUnmatchedStable(s[1..], c);
      InsertByPlaysStable(s[0], SortUnmatched(s[1..]), c);
      assert ([s[0]] + SortUnmatched(s[1..]))[1..] == SortUnmatched(s[1..]);
    }
  }
}

=== FILE: normalize.dfy ===
/** The importer's string normalisers. Lower-casing, Unicode NFC/NFD
    normalisation, percent quoting and the featured-artist rewrites are not
    modelled; they are carried as uninterpreted functions. */
module Normalize {

  datatype Normalizers = Normalizers(
    lower: string -> string,         // str.lower
    nfc: string -> string,           // unicodedata.normalize('NFC', _)
    nfd: string -> string,           // unicodedata.normalize('NFD', _)
    featFold: string -> string,      // the three feat./ft./f. rewrites of a lowered title
    unquote: string -> string,       // urllib.parse.unquote
    quote: string -> string,         // urllib.parse.quote(_, safe='/')
    spacesDecoded: string -> string, // _.replace('%20', ' ')
    spacesEncoded: string -> string) // _.replace(' ', '%20')

  /** `unicodedata.normalize('NFC', s.lower())`, the case-insensitive form. */
  function Fold(nz: Normalizers, s: string): string
  {
    nz.nfc(nz.lower(s))
  }

  /** `_normalize_field`: empty stays empty, anything else is folded. */
  function Field(nz: Normalizers, text: string): (r: string)
    ensures text == "" ==> r == ""
  {
    if text == "" then "" else Fold(nz, text)
  }

  /** `_normalize_title`: empty stays empty, anything else is folded and then has
      its featured-artist abbreviations rewritten. */
  function Title(nz: Normalizers, title: string): (r: string)
    ensures title == "" ==> r == ""
  {
    if title == "" then "" else nz.featFold(Fold(nz, title))
  }

  /** `for v in list(vs): n = f(v); if n not in vs: vs.append(n)`: the values of
      `f` over `vs` not yet present are appended, in order. */
  function AppendNew(vs: seq<string>, todo: seq<string>, f: string -> string): (r: seq<string>)
    ensures |r| >= |vs| && r[..|vs|] == vs
    ensures |r| <= |vs| + |todo|
    decreases |todo|
  {
    if |todo| == 0 then vs
    else
      var n := f(todo[0]);
      var next := if n in vs then vs else vs + [n];
      var r := AppendNew(next, todo[1..], f);
      assert r[..|vs|] == r[..|next|][..|vs|];
      r
  }

  /** The normal form of every element of `todo` ends up in the list. */
  lemma {:induction false} AppendNewCovers(vs: seq<string>, todo: seq<string>, f: string -> string, x: string)
    requires x in todo
    ensures f(x) in AppendNew(vs, todo, f)
    decreases |todo|
  {
    var n := f(todo[0]);
    var next := if n in vs then vs else vs + [n];
    var r := AppendNew(next, todo[1..], f);
    assert r == AppendNew(vs, todo, f);
    if x == todo[0] {
      assert n in next;
      InPrefix(next, r, n);
    } else {
      assert x in todo[1..] by {
        assert todo == [todo[0]] + todo[1..];
      }
      AppendNewCovers(next, todo[1..], f, x);
    }
  }

  /** What is appended are normal forms of `todo` not listed before. */
  lemma {:induction false} AppendNewOnlyNew(vs: seq<string>, todo: seq<string>, f: string -> string)
    ensures var r := AppendNew(vs, todo, f);
      forall i :: |vs| <= i < |r| ==> r[i] !in vs && exists x :: x in todo && r[i] == f(x)
    decreases |todo|
  {
    if |todo| > 0 {
      var n := f(todo[0]);
      var next := if n in vs then vs else vs + [n];
      var r := AppendNew(next, todo[1..], f);
      assert r == AppendNew(vs, todo, f);
      AppendNewOnlyNew(next, todo[1..], f);
      forall i | |vs| <= i < |r| ensures r[i] !in vs && exists x :: x in todo && r[i] == f(x) {
        if i < |next| {
          assert r[i] == r[..|next|][i] == n;
          assert todo[0] in todo;
        } else {
          assert |next| <= i < |AppendNew(next, todo[1..], f)|;
          assert r[i] !in next && exists x :: x in todo[1..] && r[i] == f(x);
          var x :| x in todo[1..] && r[i] == f(x);
          assert x in todo;
          assert forall y :: y in vs ==> y in next;
        }
      }
    }
  }

  /** `_normalize_path`: the raw path, four quoting variants, then their NFC forms
      and then the NFD forms of everything so far, skipping ones already listed. */
  function PathVariants(nz: Normalizers, path: string): (vs: seq<string>)
    ensures 5 <= |vs| <= 20
    ensures vs[0] == path
    ensures vs[1] == nz.spacesDecoded(path) && vs[2] == nz.spacesEncoded(path)
    ensures vs[3] == nz.unquote(path) && vs[4] == nz.quote(nz.unquote(path))
  {
    var base := [path, nz.spacesDecoded(path), nz.spacesEncoded(path),
                 nz.unquote(path), nz.quote(nz.unquote(path))];
    var withNfc := AppendNew(base, base, nz.nfc);
    var all := AppendNew(withNfc, withNfc, nz.nfd);
    assert all[..5] == all[..|withNfc|][..5];
    all
  }

  /** The NFC and the NFD form of the raw path and of each quoting variant are
      among the variants. */
  lemma PathVariantsNormalForms(nz: Normalizers, path: string)
    ensures var vs := PathVariants(nz, path);
      forall i :: 0 <= i < 5 ==> nz.nfc(vs[i]) in vs && nz.nfd(vs[i]) in vs
  {
    var base := [path, nz.spacesDecoded(path), nz.spacesEncoded(path),
                 nz.unquote(path), nz.quote(nz.unquote(path))];
    assert PathVariants(nz, path) == AppendNew(AppendNew(base, base, nz.nfc), AppendNew(base, base, nz.nfc), nz.nfd);
    TwoPasses(base, nz.nfc, nz.nfd);
  }

  /** After an NFC pass and an NFD pass over a list, both normal forms of each
      original element are listed. */
  lemma TwoPasses(base: seq<string>, nfc: string -> string, nfd: string -> string)
    ensures var withNfc := AppendNew(base, base, nfc);
      var all := AppendNew(withNfc, withNfc, nfd);
      forall i :: 0 <= i < |base| ==> nfc(all[i]) in all && nfd(all[i]) in all
  {
    var withNfc := AppendNew(base, base, nfc);
    var all := AppendNew(withNfc, withNfc, nfd);
    forall i | 0 <= i < |base| ensures nfc(all[i]) in all && nfd(all[i]) in all {
      TwoPassesAt(base, nfc, nfd, base[i]);
      assert all[i] == base[i] by {
        assert all[..|base|] == all[..|withNfc|][..|base|];
      }
    }
  }

  lemma TwoPassesAt(base: seq<string>, nfc: string -> string, nfd: string -> string, x: string)
    requires x in base
    ensures var withNfc := AppendNew(base, base, nfc);
      var all := AppendNew(withNfc, withNfc, nfd);
      nfc(x) in all && nfd(x) in all
  {
    var withNfc := AppendNew(base, base, nfc);
    var all := AppendNew(withNfc, withNfc, nfd);
    AppendNewCovers(base, base, nfc, x);
    InPrefix(base, withNfc, x);
    InPrefix(withNfc, all, nfc(x));
    AppendNewCovers(withNfc, withNfc, nfd, x);
  }

  /** What a list starts with, it contains. */
  lemma InPrefix(vs: seq<string>, r: seq<string>, x: string)
    requires |r| >= |vs| && r[..|vs|] == vs && x in vs
    ensures x in r
  {
    var j :| 0 <= j < |vs| && vs[j] == x;
    assert r[j] == r[..|vs|][j];
  }
}

=== FILE: playlists.dfy ===
/** The importer's playlist rebuild (migrate.py): each migrated playlist reuses
    the user's playlist row of the same name or gets a new one, loses its old
    entries, and receives its resolvable tracks at positions 0, 1, 2, ... */
module Playlists {
  import opened Common
  import opened AssocList
  import opened Library
  import Annotations
  import Migration

  /** A `playlist` row. */
  datatype PlaylistRow = PlaylistRow(id: string, name: string, owner: string, songCount: int)

  /** A `playlist_tracks` row: position in the playlist, playlist id, media file id. */
  datatype Entry = Entry(position: int, playlistId: string, mediaFileId: string)

  datatype PlaylistTables = PlaylistTables(playlists: seq<PlaylistRow>, entries: seq<Entry>)

  /** `track_id_to_navidrome`: each legacy track id whose path was matched, mapped
      to the matched media file id, in the id map's order. The id map's keys are
      distinct, so assigning them one by one gives exactly this list. */
  function ComposeIds(trackIdMap: Dict<int, string>, pathToId: Dict<string, string>): (r: Dict<int, string>)
    ensures Keys(r) <= Keys(trackIdMap)
  {
    if |trackIdMap| == 0 then []
    else
      var rest := ComposeIds(trackIdMap[1..], pathToId);
      KeysCons(trackIdMap);
      match Get(pathToId, trackIdMap[0].1)
      case Some(id) => [(trackIdMap[0].0, id)] + rest
      case None => rest
  }

  /** Looking a legacy id up in the composed map is looking up its path, then
      the path's media file. */
  lemma {:induction false} ComposeIdsGet(trackIdMap: Dict<int, string>, pathToId: Dict<string, string>, tid: int)
    requires KeysDistinct(trackIdMap)
    ensures Get(ComposeIds(trackIdMap, pathToId), tid)
         == match Get(trackIdMap, tid) { case Some(p) => Get(pathToId, p) case None => None }
  {
    if |trackIdMap| > 0 {
      var rest := ComposeIds(trackIdMap[1..], pathToId);
      KeysCons(trackIdMap);
      ComposeIdsGet(trackIdMap[1..], pathToId, tid);
      match Get(pathToId, trackIdMap[0].1)
      case Some(id) => {
        var r := [(trackIdMap[0].0, id)] + rest;
        assert r[1..] == rest;
      }
      case None =>
    }
  }

  /** As written, the composed map only knows paths the track pass matched, and
      that pass sees only tracks with plays or a rating. So a playlist entry
      whose legacy track has no statistics never resolves, whatever media file
      lies at its path. */
  lemma UnplayedTrackNeverListed(setup: PathSetup, tracks: seq<SourceTrack>, cascade: Migration.Matcher,
                                 user: string, db: Annotations.Db, tid: int, p: string)
    requires LastPathOf(setup, tracks, tid) == Some(p)
    requires forall t :: t in tracks && RelativePath(setup, t) == Some(p) ==> !HasStats(t)
    ensures var parsed := ParseTracks(setup, tracks);
      Get(ComposeIds(parsed.trackIdMap, Migration.MigrateTracks(cascade, user, db, parsed.data).pathToId), tid).None?
  {
    var parsed := ParseTracks(setup, tracks);
    var run := Migration.MigrateTracks(cascade, user, db, parsed.data);
    ParseTracksIdMap(setup, tracks, tid);
    ComposeIdsGet(parsed.trackIdMap, run.pathToId, tid);
    Migration.MigrateTracksPaths(cascade, user, db, parsed.data, p);
    ParseTracksData(setup, tracks, p);
    forall e | e in parsed.data
      ensures e.0 != p
    {
      assert e.0 in Keys(parsed.data);
    }
  }

  /** The corrected composition: every legacy id whose path the matching
      cascade resolves (`lookup`), whether or not the track has statistics. */
  function ComposeAllIds(trackIdMap: Dict<int, string>, lookup: string -> Option<string>): (r: Dict<int, string>)
    ensures Keys(r) <= Keys(trackIdMap)
  {
    if |trackIdMap| == 0 then []
    else
      var rest := ComposeAllIds(trackIdMap[1..], lookup);
      KeysCons(trackIdMap);
      match lookup(trackIdMap[0].1)
      case Some(id) => [(trackIdMap[0].0, id)] + rest
      case None => rest
  }

  /** Looking a legacy id up in the corrected map is resolving its path. */
  lemma {:induction false} ComposeAllIdsGet(trackIdMap: Dict<int, string>, lookup: string -> Option<string>, tid: int)
    requires KeysDistinct(trackIdMap)
    ensures Get(ComposeAllIds(trackIdMap, lookup), tid)
         == match Get(trackIdMap, tid) { case Some(p) => lookup(p) case None => None }
  {
    if |trackIdMap| > 0 {
      var rest := ComposeAllIds(trackIdMap[1..], lookup);
      KeysCons(trackIdMap);
      ComposeAllIdsGet(trackIdMap[1..], lookup, tid);
      match lookup(trackIdMap[0].1)
      case Some(id) => {
        var r := [(trackIdMap[0].0, id)] + rest;
        assert r[1..] == rest;
      }
      case None =>
    }
  }

  /** With the corrected map, every track of a playlist whose path resolves to a
      media file is listed, played or not. */
  lemma MatchableTrackListed(trackIdMap: Dict<int, string>, lookup: string -> Option<string>,
                             trackIds: seq<int>, tid: int, p: string, id: string)
    requires KeysDistinct(trackIdMap)
    requires tid in trackIds && Get(trackIdMap, tid) == Some(p)
    requires lookup(p) == Some(id) && id != ""
    ensures id in Resolve(trackIds, ComposeAllIds(trackIdMap, lookup))
  {
    ComposeAllIdsGet(trackIdMap, lookup, tid);
    ResolveListsHit(trackIds, ComposeAllIds(trackIdMap, lookup), tid, id);
  }

  /** The as-written composition is the corrected one restricted to the paths
      the track pass matched. */
  lemma {:induction false} ComposeIdsRestricted(trackIdMap: Dict<int, string>, pathToId: Dict<string, string>)
    ensures ComposeIds(trackIdMap, pathToId) == ComposeAllIds(trackIdMap, p => Get(pathToId, p))
  {
    if |trackIdMap| > 0 {
      ComposeIdsRestricted(trackIdMap[1..], pathToId);
    }
  }

  /** A playlist track that resolves to a non-empty id is listed. */
  lemma {:induction false} ResolveListsHit(trackIds: seq<int>, ids: Dict<int, string>, tid: int, id: string)
    requires tid in trackIds && Get(ids, tid) == Some(id) && id != ""
    ensures id in Resolve(trackIds, ids)
  {
    if trackIds[0] == tid {
      ResolveHit(tid, trackIds[1..], ids, id);
      assert trackIds == [tid] + trackIds[1..];
    } else {
      assert tid in trackIds[1..];
      ResolveListsHit(trackIds[1..], ids, tid, id);
      assert trackIds == [trackIds[0]] + trackIds[1..];
      match Get(ids, trackIds[0])
      case Some(x) =>
        if x != "" {
          ResolveHit(trackIds[0], trackIds[1..], ids, x);
        } else {
          ResolveEmpty(trackIds[0], trackIds[1..], ids);
        }
      case None =>
        ResolveMiss(trackIds[0], trackIds[1..], ids);
    }
  }

  /** `SELECT id FROM playlist WHERE name = ? AND owner_id = ?`, first row. */
  function FindPlaylist(rows: seq<PlaylistRow>, name: string, owner: string): (r: Option<string>)
    ensures r.None? <==> forall i :: 0 <= i < |rows| ==> !(rows[i].name == name && rows[i].owner == owner)
    ensures r.Some? ==> exists i :: 0 <= i < |rows| && rows[i].name == name && rows[i].owner == owner && rows[i].id == r.value
  {
    if |rows| == 0 then None
    else if rows[0].name == name && rows[0].owner == owner then Some(rows[0].id)
    else
      var r := FindPlaylist(rows[1..], name, owner);
      assert forall i :: 1 <= i < |rows| ==> rows[i] == rows[1..][i - 1];
      r
  }

  /** The media file ids of a playlist's legacy tracks that resolve to a
      non-empty id, in playlist order; the others are skipped. */
  function Resolve(trackIds: seq<int>, ids: Dict<int, string>): (r: seq<string>)
    ensures |r| <= |trackIds|
    ensures forall i :: 0 <= i < |r| ==> r[i] != "" && exists tid :: tid in trackIds && Get(ids, tid) == Some(r[i])
  {
    if |trackIds| == 0 then []
    else
      var rest := Resolve(trackIds[1..], ids);
      assert forall tid :: tid in trackIds[1..] ==> tid in trackIds;
      assert trackIds[0] in trackIds;
      match Get(ids, trackIds[0])
      case Some(id) => if id != "" then [id] + rest else rest
      case None => rest
  }

  /** A playlist whose every track resolves keeps all of them. */
  lemma {:induction false} ResolveAll(trackIds: seq<int>, ids: Dict<int, string>)
    requires forall tid :: tid in trackIds ==> Get(ids, tid).Some? && Get(ids, tid).value != ""
    ensures |Resolve(trackIds, ids)| == |trackIds|
  {
    if |trackIds| > 0 {
      assert trackIds[0] in trackIds;
      assert forall tid :: tid in trackIds[1..] ==> tid in trackIds;
      ResolveAll(trackIds[1..], ids);
      var id := Get(ids, trackIds[0]).value;
      assert Resolve(trackIds, ids) == [id] + Resolve(trackIds[1..], ids);
    }
  }

  /** The entries of playlist `pid`, in table order. */
  function EntriesOf(entries: seq<Entry>, pid: string): (r: seq<Entry>)
    ensures |r| <= |entries|
    ensures forall e :: e in r <==> e in entries && e.playlistId == pid
  {
    if |entries| == 0 then []
    else
      var rest := EntriesOf(entries[1..], pid);
      assert forall e :: e in entries <==> e == entries[0] || e in entries[1..] by {
        assert entries == [entries[0]] + entries[1..];
      }
      if entries[0].playlistId == pid then [entries[0]] + rest else rest
  }

  /** `DELETE FROM playlist_tracks WHERE playlist_id = ?`. */
  function Without(entries: seq<Entry>, pid: string): (r: seq<Entry>)
    ensures |r| <= |entries|
    ensures forall e :: e in r <==> e in entries && e.playlistId != pid
  {
    if |entries| == 0 then []
    else
      var rest := Without(entries[1..], pid);
      assert forall e :: e in entries <==> e == entries[0] || e in entries[1..] by {
        assert entries == [entries[0]] + entries[1..];
      }
      if entries[0].playlistId != pid then [entries[0]] + rest else rest
  }

  /** The inserted entries: the i-th resolved track at position `start + i`. */
  function Numbered(ids: seq<string>, pid: string, start: int): (r: seq<Entry>)
    ensures |r| == |ids|
    ensures forall i :: 0 <= i < |ids| ==> r[i] == Entry(start + i, pid, ids[i])
  {
    if |ids| == 0 then []
    else [Entry(start, pid, ids[0])] + Numbered(ids[1..], pid, start + 1)
  }

  /** `UPDATE playlist SET song_count = ? WHERE id = ?`. */
  function SetSongCount(rows: seq<PlaylistRow>, pid: string, count: int): (r: seq<PlaylistRow>)
    ensures |r| == |rows|
    ensures forall i :: 0 <= i < |rows| ==>
      r[i] == if rows[i].id == pid then rows[i].(songCount := count) else rows[i]
  {
    if |rows| == 0 then []
    else
      [if rows[0].id == pid then rows[0].(songCount := count) else rows[0]]
        + SetSongCount(rows[1..], pid, count)
  }

  /** The id the playlist ends up under: the user's existing playlist of that
      name, or the fresh id. */
  function TargetId(t: PlaylistTables, owner: string, name: string, freshId: string): string
  {
    FindPlaylist(t.playlists, name, owner).GetOr(freshId)
  }

  /** `freshId` (a new random UUID in the source) names no row yet. */
  ghost predicate Fresh(t: PlaylistTables, freshId: string)
  {
    && (forall row :: row in t.playlists ==> row.id != freshId)
    && (forall e :: e in t.entries ==> e.playlistId != freshId)
  }

  /** One iteration of `_migrate_playlists`. */
  function RebuildPlaylist(t: PlaylistTables, owner: string, pl: Playlist, ids: Dict<int, string>, freshId: string): (r: PlaylistTables)
    ensures |t.playlists| <= |r.playlists| <= |t.playlists| + 1
  {
    var found := FindPlaylist(t.playlists, pl.name, owner);
    var pid := found.GetOr(freshId);
    var rows := if found.Some? then t.playlists else t.playlists + [PlaylistRow(freshId, pl.name, owner, 0)];
    var kept := if found.Some? then Without(t.entries, pid) else t.entries;
    var added := Resolve(pl.trackIds, ids);
    PlaylistTables(SetSongCount(rows, pid, |added|), kept + Numbered(added, pid, 0))
  }

  /** After the rebuild the playlist holds exactly its resolved tracks, at
      positions 0, 1, 2, ..., and every other playlist keeps its entries. */
  lemma RebuildPlaylistEntries(t: PlaylistTables, owner: string, pl: Playlist, ids: Dict<int, string>, freshId: string)
    requires Fresh(t, freshId)
    ensures var r := RebuildPlaylist(t, owner, pl, ids, freshId);
      var pid := TargetId(t, owner, pl.name, freshId);
      && EntriesOf(r.entries, pid) == Numbered(Resolve(pl.trackIds, ids), pid, 0)
      && (forall q :: q != pid ==> EntriesOf(r.entries, q) == EntriesOf(t.entries, q))
  {
    var found := FindPlaylist(t.playlists, pl.name, owner);
    var pid := found.GetOr(freshId);
    var kept := if found.Some? then Without(t.entries, pid) else t.entries;
    var resolved := Resolve(pl.trackIds, ids);
    assert RebuildPlaylist(t, owner, pl, ids, freshId).entries == kept + Numbered(resolved, pid, 0);
    KeptPlusAdded(t.entries, kept, resolved, pid, found.Some?);
  }

  /** The entries after a rebuild: the kept ones, then the numbered new ones. */
  lemma KeptPlusAdded(entries: seq<Entry>, kept: seq<Entry>, resolved: seq<string>, pid: string, removed: bool)
    requires kept == if removed then Without(entries, pid) else entries
    requires removed || forall e :: e in entries ==> e.playlistId != pid
    ensures EntriesOf(kept + Numbered(resolved, pid, 0), pid) == Numbered(resolved, pid, 0)
    ensures forall q :: q != pid ==> EntriesOf(kept + Numbered(resolved, pid, 0), q) == EntriesOf(entries, q)
  {
    var added := Numbered(resolved, pid, 0);
    EntriesOfAppend(kept, added, pid);
    EntriesOfNumbered(resolved, pid, 0, pid);
    NoEntriesOf(kept, pid);
    forall q | q != pid ensures EntriesOf(kept + added, q) == EntriesOf(entries, q) {
      EntriesOfAppend(kept, added, q);
      EntriesOfNumbered(resolved, pid, 0, q);
      if removed { EntriesOfWithout(entries, pid, q); }
      assert EntriesOf(kept, q) + [] == EntriesOf(kept, q);
    }
  }

  /** After the rebuild the user has a playlist row of that name under the
      target id, counting the tracks added; a row is added only when the user
      had no playlist of that name, and rows with other ids are untouched. */
  lemma RebuildPlaylistRows(t: PlaylistTables, owner: string, pl: Playlist, ids: Dict<int, string>, freshId: string)
    ensures var r := RebuildPlaylist(t, owner, pl, ids, freshId);
      var pid := TargetId(t, owner, pl.name, freshId);
      && (FindPlaylist(t.playlists, pl.name, owner).Some? ==> |r.playlists| == |t.playlists|)
      && (FindPlaylist(t.playlists, pl.name, owner).None? ==> |r.playlists| == |t.playlists| + 1)
      && (forall i :: 0 <= i < |t.playlists| && t.playlists[i].id != pid ==> r.playlists[i] == t.playlists[i])
      && (forall row :: row in r.playlists && row.id == pid ==> row.songCount == |Resolve(pl.trackIds, ids)|)
      && (exists row :: row in r.playlists && row.id == pid && row.name == pl.name && row.owner == owner)
  {
    var found := FindPlaylist(t.playlists, pl.name, owner);
    var pid := found.GetOr(freshId);
    var rows := if found.Some? then t.playlists else t.playlists + [PlaylistRow(freshId, pl.name, owner, 0)];
    var n := |Resolve(pl.trackIds, ids)|;
    assert RebuildPlaylist(t, owner, pl, ids, freshId).playlists == SetSongCount(rows, pid, n);
    SetSongCountSets(rows, pid, n);
    if found.Some? {
      var i :| 0 <= i < |rows| && rows[i].name == pl.name && rows[i].owner == owner && rows[i].id == pid;
      SetSongCountKeepsRow(rows, pid, n, i);
    } else {
      SetSongCountKeepsRow(rows, pid, n, |t.playlists|);
    }
  }

  lemma SetSongCountSets(rows: seq<PlaylistRow>, pid: string, n: int)
    ensures forall row :: row in SetSongCount(rows, pid, n) && row.id == pid ==> row.songCount == n
  {
    var r := SetSongCount(rows, pid, n);
    forall row | row in r && row.id == pid ensures row.songCount == n {
      var i :| 0 <= i < |r| && r[i] == row;
    }
  }

  lemma SetSongCountKeepsRow(rows: seq<PlaylistRow>, pid: string, n: int, i: int)
    requires 0 <= i < |rows| && rows[i].id == pid
    ensures exists row :: row in SetSongCount(rows, pid, n) && row.id == pid && row.name == rows[i].name && row.owner == rows[i].owner
  {
    assert SetSongCount(rows, pid, n)[i] in SetSongCount(rows, pid, n);
  }

  lemma {:induction false} EntriesOfAppend(a: seq<Entry>, b: seq<Entry>, pid: string)
    ensures EntriesOf(a + b, pid) == EntriesOf(a, pid) + EntriesOf(b, pid)
  {
    if |a| == 0 {
      assert a + b == b;
    } else {
      assert (a + b)[0] == a[0];
      assert (a + b)[1..] == a[1..] + b;
      EntriesOfAppend(a[1..], b, pid);
    }
  }

  lemma {:induction false} EntriesOfNumbered(ids: seq<string>, pid: string, start: int, q: string)
    ensures EntriesOf(Numbered(ids, pid, start), q) == if q == pid then Numbered(ids, pid, start) else []
  {
    if |ids| > 0 {
      EntriesOfNumbered(ids[1..], pid, start + 1, q);
      var n := Numbered(ids, pid, start);
      assert n[1..] == Numbered(ids[1..], pid, start + 1);
    }
  }

  lemma {:induction false} EntriesOfWithout(entries: seq<Entry>, pid: string, q: string)
    requires q != pid
    ensures EntriesOf(Without(entries, pid), q) == EntriesOf(entries, q)
  {
    if |entries| > 0 {
      EntriesOfWithout(entries[1..], pid, q);
      var w := Without(entries, pid);
      if entries[0].playlistId != pid {
        assert w[0] == entries[0] && w[1..] == Without(entries[1..], pid);
      }
    }
  }

  lemma NoEntriesOf(entries: seq<Entry>, pid: string)
    requires forall e :: e in entries ==> e.playlistId != pid
    ensures EntriesOf(entries, pid) == []
  {
    if EntriesOf(entries, pid) != [] {
      assert EntriesOf(entries, pid)[0] in EntriesOf(entries, pid);
    }
  }

  /** `_migrate_playlists`: the legacy ids are composed with the matched paths
      once, then each playlist is rebuilt in turn, the i-th with `freshIds[i]` as
      the id for a new row. Each playlist adds at most one row. */
  function MigratePlaylists(t: PlaylistTables, owner: string, pls: seq<Playlist>,
                            trackIdMap: Dict<int, string>, pathToId: Dict<string, string>,
                            freshIds: seq<string>): (r: PlaylistTables)
    requires |freshIds| == |pls|
    ensures |t.playlists| <= |r.playlists| <= |t.playlists| + |pls|
  {
    var ids := ComposeIds(trackIdMap, pathToId);
    RebuildAll(t, owner, pls, ids, freshIds)
  }

  function RebuildAll(t: PlaylistTables, owner: string, pls: seq<Playlist>, ids: Dict<int, string>,
                      freshIds: seq<string>): (r: PlaylistTables)
    requires |freshIds| == |pls|
    ensures |t.playlists| <= |r.playlists| <= |t.playlists| + |pls|
  {
    if |pls| == 0 then t
    else
      var n := |pls| - 1;
      var prev := RebuildAll(t, owner, pls[..n], ids, freshIds[..n]);
      RebuildPlaylist(prev, owner, pls[n], ids, freshIds[n])
  }

  /** Running the rebuild again changes nothing: the second run finds the row
      the first one left, so no playlist row or entry is duplicated. */
  lemma RebuildPlaylistTwice(t: PlaylistTables, owner: string, pl: Playlist, ids: Dict<int, string>,
                             freshId: string, freshId2: string)
    requires Fresh(t, freshId)
    ensures var once := RebuildPlaylist(t, owner, pl, ids, freshId);
      RebuildPlaylist(once, owner, pl, ids, freshId2) == once
  {
    var once := RebuildPlaylist(t, owner, pl, ids, freshId);
    var found := FindPlaylist(t.playlists, pl.name, owner);
    var pid := found.GetOr(freshId);
    var rows := if found.Some? then t.playlists else t.playlists + [PlaylistRow(freshId, pl.name, owner, 0)];
    var kept := if found.Some? then Without(t.entries, pid) else t.entries;
    var resolved := Resolve(pl.trackIds, ids);
    var added := Numbered(resolved, pid, 0);
    assert once == PlaylistTables(SetSongCount(rows, pid, |resolved|), kept + added);
    FindSetSongCount(rows, pid, |resolved|, pl.name, owner);
    if found.None? {
      FindAppend(t.playlists, [PlaylistRow(freshId, pl.name, owner, 0)], pl.name, owner);
    }
    assert FindPlaylist(once.playlists, pl.name, owner) == Some(pid);
    var twice := RebuildPlaylist(once, owner, pl, ids, freshId2);
    assert twice == PlaylistTables(SetSongCount(once.playlists, pid, |resolved|), Without(once.entries, pid) + added);
    SetSongCountTwice(rows, pid, |resolved|);
    assert twice.playlists == once.playlists;
    assert forall e :: e in kept ==> e.playlistId != pid;
    RebuiltEntries(kept, resolved, pid);
  }

  lemma RebuiltEntries(kept: seq<Entry>, resolved: seq<string>, pid: string)
    requires forall e :: e in kept ==> e.playlistId != pid
    ensures Without(kept + Numbered(resolved, pid, 0), pid) + Numbered(resolved, pid, 0) == kept + Numbered(resolved, pid, 0)
  {
    var added := Numbered(resolved, pid, 0);
    WithoutAppend(kept, added, pid);
    WithoutNone(kept, pid);
    WithoutNumbered(resolved, pid, 0);
    assert kept + [] == kept;
    assert Without(kept + added, pid) == kept;
  }

  lemma {:induction false} FindSetSongCount(rows: seq<PlaylistRow>, pid: string, count: int, name: string, owner: string)
    ensures FindPlaylist(SetSongCount(rows, pid, count), name, owner) == FindPlaylist(rows, name, owner)
  {
    if |rows| > 0 {
      var s := SetSongCount(rows, pid, count);
      assert s[1..] == SetSongCount(rows[1..], pid, count);
      FindSetSongCount(rows[1..], pid, count, name, owner);
    }
  }

  lemma {:induction false} FindAppend(a: seq<PlaylistRow>, b: seq<PlaylistRow>, name: string, owner: string)
    ensures FindPlaylist(a + b, name, owner)
         == if FindPlaylist(a, name, owner).Some? then FindPlaylist(a, name, owner) else FindPlaylist(b, name, owner)
  {
    if |a| == 0 {
      assert a + b == b;
    } else {
      assert (a + b)[0] == a[0];
      assert (a + b)[1..] == a[1..] + b;
      FindAppend(a[1..], b, name, owner);
    }
  }

  lemma SetSongCountTwice(rows: seq<PlaylistRow>, pid: string, count: int)
    ensures SetSongCount(SetSongCount(rows, pid, count), pid, count) == SetSongCount(rows, pid, count)
  {
  }

  lemma {:induction false} WithoutAppend(a: seq<Entry>, b: seq<Entry>, pid: string)
    ensures Without(a + b, pid) == Without(a, pid) + Without(b, pid)
  {
    if |a| == 0 {
      assert a + b == b;
    } else {
      assert (a + b)[0] == a[0];
      assert (a + b)[1..] == a[1..] + b;
      WithoutAppend(a[1..], b, pid);
    }
  }

  lemma {:induction false} WithoutNone(entries: seq<Entry>, pid: string)
    requires forall e :: e in entries ==> e.playlistId != pid
    ensures Without(entries, pid) == entries
  {
    if |entries| > 0 {
      assert entries[0] in entries;
      assert forall e :: e in entries[1..] ==> e in entries;
      WithoutNone(entries[1..], pid);
      assert entries == [entries[0]] + entries[1..];
    }
  }

  lemma {:induction false} WithoutNumbered(ids: seq<string>, pid: string, start: int)
    ensures Without(Numbered(ids, pid, start), pid) == []
  {
    if |ids| > 0 {
      var n := Numbered(ids, pid, start);
      assert n[1..] == Numbered(ids[1..], pid, start + 1);
      WithoutNumbered(ids[1..], pid, start + 1);
    }
  }

  /** Resolving a concatenation resolves each part: an unmatched track in the
      middle of a playlist leaves no gap between its neighbours. */
  lemma {:induction false} ResolveAppend(a: seq<int>, b: seq<int>, ids: Dict<int, string>)
    ensures Resolve(a + b, ids) == Resolve(a, ids) + Resolve(b, ids)
  {
    if |a| > 0 {
      ResolveAppend(a[1..], b, ids);
      assert a + b == [a[0]] + (a[1..] + b);
      assert a == [a[0]] + a[1..];
      match Get(ids, a[0])
      case Some(x) =>
        if x != "" {
          ResolveHit(a[0], a[1..] + b, ids, x);
          ResolveHit(a[0], a[1..], ids, x);
        } else {
          ResolveEmpty(a[0], a[1..] + b, ids);
          ResolveEmpty(a[0], a[1..], ids);
        }
      case None =>
        ResolveMiss(a[0], a[1..] + b, ids);
        ResolveMiss(a[0], a[1..], ids);
    } else {
      assert a + b == b;
    }
  }

  /** A track the id map does not know is dropped. */
  lemma UnmatchedTrackDropped(a: seq<int>, tid: int, b: seq<int>, ids: Dict<int, string>)
    requires Get(ids, tid).None?
    ensures Resolve(a + [tid] + b, ids) == Resolve(a, ids) + Resolve(b, ids)
  {
    var empty: seq<int> := [];
    ResolveMiss(tid, empty, ids);
    assert [tid] + empty == [tid];
    assert Resolve([tid], ids) == [];
    ResolveAppend(a, [tid], ids);
    assert Resolve(a + [tid], ids) == Resolve(a, ids) + [];
    ResolveAppend(a + [tid], b, ids);
    assert Resolve(a, ids) + [] == Resolve(a, ids);
  }

  lemma ResolveHit(tid: int, rest: seq<int>, ids: Dict<int, string>, x: string)
    requires Get(ids, tid) == Some(x) && x != ""
    ensures Resolve([tid] + rest, ids) == [x] + Resolve(rest, ids)
  {
    assert ([tid] + rest)[1..] == rest;
  }

  lemma ResolveEmpty(tid: int, rest: seq<int>, ids: Dict<int, string>)
    requires Get(ids, tid) == Some("")
    ensures Resolve([tid] + rest, ids) == Resolve(rest, ids)
  {
    assert ([tid] + rest)[1..] == rest;
  }

  lemma ResolveMiss(tid: int, rest: seq<int>, ids: Dict<int, string>)
    requires Get(ids, tid) == None
    ensures Resolve([tid] + rest, ids) == Resolve(rest, ids)
  {
    assert ([tid] + rest)[1..] == rest;
  }
}

=== FILE: ratings.dfy ===
/** The importer's rating arithmetic (migrate.py): banding the legacy library's
    0–100 ratings into 0–5 stars. */
module Ratings {

  /** `convert_rating`: >= 80 is five stars, >= 60 four, >= 40 three, >= 20 two,
      anything else above zero one, and zero or less no stars. */
  function ConvertRating(itunes: int): (stars: int)
    ensures 0 <= stars <= 5
    ensures stars == 0 <==> itunes <= 0
    ensures stars == 5 <==> itunes >= 80
  {
    if itunes >= 80 then 5
    else if itunes >= 60 then 4
    else if itunes >= 40 then 3
    else if itunes >= 20 then 2
    else if itunes > 0 then 1
    else 0
  }

  /** A higher legacy rating never converts to fewer stars. */
  lemma ConvertRatingMonotone(a: int, b: int)
    requires a <= b
    ensures ConvertRating(a) <= ConvertRating(b)
  {
  }

  /** Reference definition of the bands: each star above the first is another 20
      points, capped at five stars. */
  lemma ConvertRatingBands(itunes: int)
    requires itunes > 0
    ensures ConvertRating(itunes) == if itunes / 20 + 1 > 5 then 5 else itunes / 20 + 1
  {
  }

  /** The legacy library stores its star ratings in steps of 20 points (one
      star is 20, five stars 100). The bands put each step one star higher, so
      one to four legacy stars become two to five, and four and five legacy
      stars both become five. */
  lemma ConvertRatingOfStarSteps(stars: int)
    requires 1 <= stars <= 5
    ensures ConvertRating(20 * stars) == if stars == 5 then 5 else stars + 1
  {
  }
}

=== FILE: splits.dfy ===
/** The decision core of the split-album fixer (fix_splits.py): grouping the
    tracks of split albums by their displayed album key, and classifying each
    group's conflict together with the tag updates that repair it. */
module Splits {
  import opened Common

  /** One row of the media-file table, as the loader projects it. A NULL
      release date or MusicBrainz album id arrives as the empty string. */
  datatype Track = Track(
    path: string,
    title: string,
    album: string,
    albumArtist: string,
    releaseDate: string,
    mbzId: string,
    disc: int,
    number: int)

  /** The exact (album, album_artist) pair a group is keyed by. */
  datatype AlbumKey = AlbumKey(album: string, albumArtist: string)

  function KeyOf(t: Track): AlbumKey
  {
    AlbumKey(t.album, t.albumArtist)
  }

  /** One entry of the `{(album, album_artist): [tracks]}` dictionary. */
  datatype Group = Group(key: AlbumKey, tracks: seq<Track>)

  // ---------------------------------------------------------------------------
  // Grouping
  // ---------------------------------------------------------------------------

  /** The tracks of the group with key `k`, or none if there is no such group. */
  function TracksOf(groups: seq<Group>, k: AlbumKey): seq<Track>
  {
    if |groups| == 0 then []
    else if groups[0].key == k then groups[0].tracks
    else TracksOf(groups[1..], k)
  }

  /** Reference definition: the tracks of `ts` whose key is `k`, in input order. */
  function TracksWithKey(ts: seq<Track>, k: AlbumKey): seq<Track>
  {
    if |ts| == 0 then []
    else TracksWithKey(ts[..|ts| - 1], k) + (if KeyOf(ts[|ts| - 1]) == k then [ts[|ts| - 1]] else [])
  }

  function KeySet(groups: seq<Group>): set<AlbumKey>
  {
    if |groups| == 0 then {} else {groups[0].key} + KeySet(groups[1..])
  }

  function TotalSize(groups: seq<Group>): nat
  {
    if |groups| == 0 then 0 else |groups[0].tracks| + TotalSize(groups[1..])
  }

  /** Every key has one group, and no group is empty. */
  ghost predicate WellFormed(groups: seq<Group>)
  {
    |groups| > 0 ==>
      && groups[0].key !in KeySet(groups[1..])
      && |groups[0].tracks| > 0
      && WellFormed(groups[1..])
  }

  lemma {:induction false} NoGroupNoTracks(groups: seq<Group>, k: AlbumKey)
    requires k !in KeySet(groups)
    ensures TracksOf(groups, k) == []
  {
    if |groups| > 0 {
      NoGroupNoTracks(groups[1..], k);
    }
  }

  /** `albums.setdefault(key, []).append(t)`. */
  function AddTrack(groups: seq<Group>, t: Track): (r: seq<Group>)
    requires WellFormed(groups)
    ensures WellFormed(r)
    ensures forall k :: TracksOf(r, k) == TracksOf(groups, k) + (if k == KeyOf(t) then [t] else [])
    ensures KeySet(r) == KeySet(groups) + {KeyOf(t)}
    ensures TotalSize(r) == TotalSize(groups) + 1
  {
    if |groups| == 0 then
      var r := [Group(KeyOf(t), [t])];
      assert r[1..] == [];
      r
    else
      var g := groups[0];
      if g.key == KeyOf(t) then
        var r := [g.(tracks := g.tracks + [t])] + groups[1..];
        assert r[1..] == groups[1..];
        NoGroupNoTracks(groups[1..], KeyOf(t));
        r
      else
        var rest := AddTrack(groups[1..], t);
        var r := [g] + rest;
        assert r[1..] == rest;
        r
  }

  /** `group_by_album`: partitions `tracks` by their exact (album, album_artist)
      key. Each key of the input has exactly one group, which holds exactly the
      tracks with that key in input order; nothing is lost or duplicated. */
  function GroupByAlbum(tracks: seq<Track>): (groups: seq<Group>)
    ensures WellFormed(groups)
    ensures forall k :: TracksOf(groups, k) == TracksWithKey(tracks, k)
    ensures KeySet(groups) == set t | t in tracks :: KeyOf(t)
    ensures TotalSize(groups) == |tracks|
  {
    if |tracks| == 0 then []
    else
      var n := |tracks| - 1;
      var prev := GroupByAlbum(tracks[..n]);
      KeysSnoc(tracks);
      AddTrack(prev, tracks[n])
  }

  lemma KeysSnoc(tracks: seq<Track>)
    requires |tracks| > 0
    ensures var n := |tracks| - 1;
      (set t | t in tracks :: KeyOf(t)) == (set t | t in tracks[..n] :: KeyOf(t)) + {KeyOf(tracks[n])}
  {
    var n := |tracks| - 1;
    assert tracks == tracks[..n] + [tracks[n]];
  }

  // ---------------------------------------------------------------------------
  // Classification
  // ---------------------------------------------------------------------------

  datatype Cause = Date | MbzSingle | MbzMulti | Mixed

  /** A proposed change to one track's tags: remove its MusicBrainz album id, or
      set its release date (`None` clears it). */
  datatype Update = StripMbz(track: Track) | SetDate(track: Track, date: Option<string>)

  datatype Analysis = Analysis(cause: Cause, updates: seq<Update>)

  function NonEmptyIds(ts: seq<Track>): set<string>
  {
    set t | t in ts && t.mbzId != "" :: t.mbzId
  }

  function DateSet(ts: seq<Track>): set<string>
  {
    set t | t in ts :: t.releaseDate
  }

  /** The release dates, in track order. */
  function Dates(ts: seq<Track>): (r: seq<string>)
    ensures |r| == |ts|
    ensures forall i :: 0 <= i < |ts| ==> r[i] == ts[i].releaseDate
  {
    if |ts| == 0 then [] else [ts[0].releaseDate] + Dates(ts[1..])
  }

  /** The non-empty release dates, in track order. */
  function NonEmptyDates(ts: seq<Track>): (r: seq<string>)
    ensures |r| <= |ts|
    ensures forall x :: x in r <==> x != "" && x in Dates(ts)
  {
    if |ts| == 0 then []
    else (if ts[0].releaseDate != "" then [ts[0].releaseDate] else []) + NonEmptyDates(ts[1..])
  }

  /** The first non-empty MusicBrainz id; for a group with one distinct id this is
      the element of the singleton set the source picks with `next(iter(..))`. */
  function FirstId(ts: seq<Track>): (r: string)
    ensures r != "" ==> exists i :: 0 <= i < |ts| && ts[i].mbzId == r
    ensures r == "" ==> forall i :: 0 <= i < |ts| ==> ts[i].mbzId == ""
  {
    if |ts| == 0 then ""
    else if ts[0].mbzId != "" then ts[0].mbzId
    else FirstId(ts[1..])
  }

  /** Strip the id from each track that holds `id`, in track order. */
  function StripHolders(ts: seq<Track>, id: string): (r: seq<Update>)
    ensures forall u :: u in r ==> u.StripMbz? && u.track in ts && u.track.mbzId == id
    ensures forall t :: t in ts && t.mbzId == id ==> StripMbz(t) in r
  {
    if |ts| == 0 then []
    else (if ts[0].mbzId == id then [StripMbz(ts[0])] else []) + StripHolders(ts[1..], id)
  }

  /** Set date `d` on each track whose date differs from it, in track order. */
  function SetDiffering(ts: seq<Track>, d: string): (r: seq<Update>)
    ensures forall u :: u in r ==> u.SetDate? && u.date == Some(d) && u.track in ts && u.track.releaseDate != d
    ensures forall t :: t in ts && t.releaseDate != d ==> SetDate(t, Some(d)) in r
  {
    if |ts| == 0 then []
    else (if ts[0].releaseDate != d then [SetDate(ts[0], Some(d))] else []) + SetDiffering(ts[1..], d)
  }

  /** Clear the date of each track that has one, in track order. */
  function ClearDated(ts: seq<Track>): (r: seq<Update>)
    ensures forall u :: u in r ==> u.SetDate? && u.date == None && u.track in ts && u.track.releaseDate != ""
    ensures forall t :: t in ts && t.releaseDate != "" ==> SetDate(t, None) in r
  {
    if |ts| == 0 then []
    else (if ts[0].releaseDate != "" then [SetDate(ts[0], None)] else []) + ClearDated(ts[1..])
  }

  /** `analyse`: the cause of one group's split and the updates that fix it. */
  function Analyse(ts: seq<Track>): (r: Analysis)
    ensures r.cause == Mixed || r.cause == MbzMulti ==> r.updates == []
    ensures forall u :: u in r.updates ==> u.track in ts
    ensures forall u :: u in r.updates ==> (u.StripMbz? <==> r.cause == MbzSingle)
  {
    var ids := NonEmptyIds(ts);
    var mbzConflict := |ids| > 1;
    var dateConflict := |DateSet(ts)| > 1;
    if mbzConflict && dateConflict then Analysis(Mixed, [])
    else if mbzConflict then Analysis(MbzMulti, [])
    else if |ids| == 1 && exists i :: 0 <= i < |ts| && ts[i].mbzId == "" then
      Analysis(MbzSingle, StripHolders(ts, FirstId(ts)))
    else DateRule(ts)
  }

  /** The release-date rules `analyse` falls through to: one date is copied to
      every track, the majority date wins, or with no majority all dates are
      cleared. */
  function DateRule(ts: seq<Track>): (r: Analysis)
    ensures r.cause == Date
    ensures forall u :: u in r.updates ==> u.SetDate? && u.track in ts && u.date.GetOr("") != u.track.releaseDate
  {
    var nonEmpty := NonEmptyDates(ts);
    if |nonEmpty| == 0 then Analysis(Date, [])
    else if |set d | d in nonEmpty| == 1 then Analysis(Date, SetDiffering(ts, nonEmpty[0]))
    else
      var m := Mode(nonEmpty);
      if 2 * Count(nonEmpty, m) > |ts| then Analysis(Date, SetDiffering(ts, m))
      else Analysis(Date, ClearDated(ts))
  }

  // ---------------------------------------------------------------------------
  // Applying updates
  // ---------------------------------------------------------------------------

  /** The release date track `t` ends up with once the updates `us` are written
      one after another. `lands(u)` says whether writing `u` reaches the file: it
      is false for every update on a dry run (the default without `--apply`), for
      a file missing under the music root, and for a write that fails (an
      unsupported format or an error). Of the updates that land, the last date
      update naming `t` wins, and a cleared date reads back as empty. */
  function DateAfter(t: Track, us: seq<Update>, lands: Update -> bool): (r: string)
    ensures (forall u :: u in us && lands(u) ==> !(u.SetDate? && u.track == t)) ==> r == t.releaseDate
    ensures r == t.releaseDate
         || exists u :: u in us && lands(u) && u.SetDate? && u.track == t && r == u.date.GetOr("")
  {
    if |us| == 0 then t.releaseDate
    else
      var last := us[|us| - 1];
      assert last in us;
      assert forall u :: u in us[..|us| - 1] ==> u in us;
      if last.SetDate? && last.track == t && lands(last) then last.date.GetOr("")
      else DateAfter(t, us[..|us| - 1], lands)
  }

  /** Updates are written one after another, so the last date update naming a
      track that lands decides its date. */
  lemma {:induction false} DateAfterLastWins(t: Track, us: seq<Update>, lands: Update -> bool, i: int)
    requires 0 <= i < |us| && us[i].SetDate? && us[i].track == t && lands(us[i])
    requires forall j :: i < j < |us| ==> !(us[j].SetDate? && us[j].track == t && lands(us[j]))
    ensures DateAfter(t, us, lands) == us[i].date.GetOr("")
  {
    var n := |us| - 1;
    if i < n {
      assert us[..n][i] == us[i];
      assert forall j :: i < j < n ==> us[..n][j] == us[j];
      DateAfterLastWins(t, us[..n], lands, i);
    }
  }

  /** With every update setting the same value `v`, a track ends up with `v` exactly
      when an update names it and that update lands. */
  lemma {:induction false} DateAfterUniform(t: Track, us: seq<Update>, lands: Update -> bool, v: Option<string>)
    requires forall u :: u in us ==> u.SetDate? && u.date == v
    ensures DateAfter(t, us, lands) == if SetDate(t, v) in us && lands(SetDate(t, v)) then v.GetOr("") else t.releaseDate
  {
    if |us| > 0 {
      var n := |us| - 1;
      assert us == us[..n] + [us[n]];
      assert forall u :: u in us[..n] ==> u in us;
      DateAfterUniform(t, us[..n], lands, v);
    }
  }

  /** Updates that all set `v`, covering every track not already at `v`: a track
      ends with `v` when its update lands and keeps its date otherwise. */
  lemma SettleTo(ts: seq<Track>, us: seq<Update>, lands: Update -> bool, v: Option<string>)
    requires forall u :: u in us ==> u.SetDate? && u.date == v
    requires forall t :: t in ts && t.releaseDate != v.GetOr("") ==> SetDate(t, v) in us
    ensures forall t :: t in ts ==>
      DateAfter(t, us, lands) == if lands(SetDate(t, v)) then v.GetOr("") else t.releaseDate
    ensures (forall u :: u in us ==> lands(u)) ==>
      forall t :: t in ts ==> DateAfter(t, us, lands) == v.GetOr("")
  {
    forall t | t in ts
      ensures DateAfter(t, us, lands) == if lands(SetDate(t, v)) then v.GetOr("") else t.releaseDate
    {
      DateAfterUniform(t, us, lands, v);
    }
  }

  /** A dry run writes nothing: every track keeps its date. */
  lemma {:induction false} DryRunKeepsDates(t: Track, us: seq<Update>)
    ensures DateAfter(t, us, (u: Update) => false) == t.releaseDate
  {
    if |us| > 0 {
      DryRunKeepsDates(t, us[..|us| - 1]);
    }
  }

  // ---------------------------------------------------------------------------
  // Counting facts behind the classification
  // ---------------------------------------------------------------------------

  /** At least two different non-empty MusicBrainz ids occur in the group. */
  ghost predicate TwoIds(ts: seq<Track>)
  {
    exists i, j :: 0 <= i < |ts| && 0 <= j < |ts|
      && ts[i].mbzId != "" && ts[j].mbzId != "" && ts[i].mbzId != ts[j].mbzId
  }

  /** Some track carries a MusicBrainz id. */
  ghost predicate SomeId(ts: seq<Track>)
  {
    exists i :: 0 <= i < |ts| && ts[i].mbzId != ""
  }

  /** Some track lacks a MusicBrainz id. */
  ghost predicate SomeMissingId(ts: seq<Track>)
  {
    exists i :: 0 <= i < |ts| && ts[i].mbzId == ""
  }

  /** At least two different release dates occur, the empty date included. */
  ghost predicate TwoDates(ts: seq<Track>)
  {
    exists i, j :: 0 <= i < |ts| && 0 <= j < |ts| && ts[i].releaseDate != ts[j].releaseDate
  }

  /** At least two different non-empty release dates occur. */
  ghost predicate TwoNonEmptyDates(ts: seq<Track>)
  {
    exists i, j :: 0 <= i < |ts| && 0 <= j < |ts|
      && ts[i].releaseDate != "" && ts[j].releaseDate != "" && ts[i].releaseDate != ts[j].releaseDate
  }

  /** The group falls through to the date rules: no MusicBrainz conflict and no
      id that only some tracks carry. */
  ghost predicate NoIdConflict(ts: seq<Track>)
  {
    !TwoIds(ts) && !(SomeId(ts) && SomeMissingId(ts))
  }

  lemma PairInSet<T>(s: set<T>, a: T, b: T)
    requires a in s && b in s && a != b
    ensures |s| > 1
  {
    assert |s - {a}| == |s| - 1;
    assert b in s - {a};
  }

  lemma PickPair<T>(s: set<T>) returns (a: T, b: T)
    requires |s| > 1
    ensures a in s && b in s && a != b
  {
    a :| a in s;
    assert |s - {a}| > 0;
    b :| b in s - {a};
  }

  /** Without a MusicBrainz conflict `analyse` applies the date rules. */
  lemma FallsToDates(ts: seq<Track>)
    requires NoIdConflict(ts)
    ensures Analyse(ts) == DateRule(ts)
  {
    IdsCardinality(ts);
  }

  lemma IdsCardinality(ts: seq<Track>)
    ensures |NonEmptyIds(ts)| > 1 <==> TwoIds(ts)
    ensures |NonEmptyIds(ts)| == 1 <==> SomeId(ts) && !TwoIds(ts)
  {
    var s := NonEmptyIds(ts);
    if |s| > 1 {
      var a, b := PickPair(s);
      var ta :| ta in ts && ta.mbzId != "" && ta.mbzId == a;
      var tb :| tb in ts && tb.mbzId != "" && tb.mbzId == b;
      var i :| 0 <= i < |ts| && ts[i] == ta;
      var j :| 0 <= j < |ts| && ts[j] == tb;
    }
    if TwoIds(ts) {
      var i, j :| 0 <= i < |ts| && 0 <= j < |ts|
        && ts[i].mbzId != "" && ts[j].mbzId != "" && ts[i].mbzId != ts[j].mbzId;
      PairInSet(s, ts[i].mbzId, ts[j].mbzId);
    }
    if SomeId(ts) {
      var i :| 0 <= i < |ts| && ts[i].mbzId != "";
      assert ts[i].mbzId in s;
    }
    if |s| > 0 {
      var a :| a in s;
      var i :| 0 <= i < |ts| && ts[i].mbzId == a && a != "";
    }
  }

  lemma DatesCardinality(ts: seq<Track>)
    ensures |DateSet(ts)| > 1 <==> TwoDates(ts)
  {
    var s := DateSet(ts);
    if |s| > 1 {
      var a, b := PickPair(s);
      var ta :| ta in ts && ta.releaseDate == a;
      var tb :| tb in ts && tb.releaseDate == b;
      var i :| 0 <= i < |ts| && ts[i] == ta;
      var j :| 0 <= j < |ts| && ts[j] == tb;
    }
    if TwoDates(ts) {
      var i, j :| 0 <= i < |ts| && 0 <= j < |ts| && ts[i].releaseDate != ts[j].releaseDate;
      PairInSet(s, ts[i].releaseDate, ts[j].releaseDate);
    }
  }

  lemma {:induction false} NonEmptyDatesCount(ts: seq<Track>, d: string)
    requires d != ""
    ensures Count(NonEmptyDates(ts), d) == Count(Dates(ts), d)
  {
    if |ts| > 0 {
      NonEmptyDatesCount(ts[1..], d);
      var head := if ts[0].releaseDate != "" then [ts[0].releaseDate] else [];
      CountAppend(head, NonEmptyDates(ts[1..]), d);
      assert Dates(ts)[1..] == Dates(ts[1..]);
    }
  }

  lemma {:induction false} SetDifferingSize(ts: seq<Track>, d: string)
    ensures |SetDiffering(ts, d)| == |ts| - Count(Dates(ts), d)
  {
    if |ts| > 0 {
      SetDifferingSize(ts[1..], d);
      assert Dates(ts)[1..] == Dates(ts[1..]);
    }
  }

  lemma {:induction false} ClearDatedSize(ts: seq<Track>)
    ensures |ClearDated(ts)| == |ts| - Count(Dates(ts), "")
  {
    if |ts| > 0 {
      ClearDatedSize(ts[1..]);
      assert Dates(ts)[1..] == Dates(ts[1..]);
    }
  }

  // ---------------------------------------------------------------------------
  // Properties of the classification
  // ---------------------------------------------------------------------------

  /** The four causes, stated track by track: two different MusicBrainz ids with
      any date disagreement (the empty date counts) is `mixed`; two ids with one
      shared date is `mbz_multi`; one id that only some tracks carry is
      `mbz_single`; everything else is a `date` case. */
  lemma Classification(ts: seq<Track>)
    ensures Analyse(ts).cause == Mixed <==> TwoIds(ts) && TwoDates(ts)
    ensures Analyse(ts).cause == MbzMulti <==> TwoIds(ts) && !TwoDates(ts)
    ensures Analyse(ts).cause == MbzSingle <==> !TwoIds(ts) && SomeId(ts) && SomeMissingId(ts)
    ensures Analyse(ts).cause == Date <==> NoIdConflict(ts)
  {
    IdsCardinality(ts);
    DatesCardinality(ts);
  }

  /** Reference definition: the tracks that carry any MusicBrainz id, in order. */
  function Holders(ts: seq<Track>): seq<Track>
  {
    if |ts| == 0 then []
    else (if ts[0].mbzId != "" then [ts[0]] else []) + Holders(ts[1..])
  }

  function Strips(h: seq<Track>): seq<Update>
  {
    if |h| == 0 then [] else [StripMbz(h[0])] + Strips(h[1..])
  }

  lemma {:induction false} StripHoldersAreHolders(ts: seq<Track>, id: string)
    requires id != ""
    requires forall i :: 0 <= i < |ts| ==> ts[i].mbzId == "" || ts[i].mbzId == id
    ensures StripHolders(ts, id) == Strips(Holders(ts))
  {
    if |ts| > 0 {
      assert forall i :: 0 <= i < |ts[1..]| ==> ts[1..][i] == ts[i + 1];
      StripHoldersAreHolders(ts[1..], id);
      var rest := Holders(ts[1..]);
      if ts[0].mbzId != "" {
        assert Holders(ts) == [ts[0]] + rest;
        assert ([ts[0]] + rest)[1..] == rest;
        assert Strips(Holders(ts)) == [StripMbz(ts[0])] + Strips(rest);
      } else {
        assert Holders(ts) == rest;
      }
    }
  }

  /** One MusicBrainz id that only some tracks carry: the cause is `mbz_single`
      and the updates strip exactly the tracks carrying an id, in group order. */
  lemma MbzSingleStripsHolders(ts: seq<Track>)
    requires !TwoIds(ts) && SomeId(ts) && SomeMissingId(ts)
    ensures Analyse(ts) == Analysis(MbzSingle, Strips(Holders(ts)))
  {
    IdsCardinality(ts);
    DatesCardinality(ts);
    var id := FirstId(ts);
    assert id != "";
    StripHoldersAreHolders(ts, id);
  }

  /** No MusicBrainz conflict and no dated track: a `date` case with nothing to do
      (a group whose tracks all share one id lands here too). */
  lemma NoDatesNothingToDo(ts: seq<Track>)
    requires NoIdConflict(ts)
    requires forall i :: 0 <= i < |ts| ==> ts[i].releaseDate == ""
    ensures Analyse(ts) == Analysis(Date, [])
  {
    IdsCardinality(ts);
    DatesCardinality(ts);
    UndatedHasNoDates(ts);
  }

  lemma {:induction false} UndatedHasNoDates(ts: seq<Track>)
    requires forall i :: 0 <= i < |ts| ==> ts[i].releaseDate == ""
    ensures NonEmptyDates(ts) == []
  {
    if |ts| > 0 {
      assert forall i :: 0 <= i < |ts[1..]| ==> ts[1..][i] == ts[i + 1];
      UndatedHasNoDates(ts[1..]);
    }
  }

  lemma {:induction false} DatedAgree(ts: seq<Track>, d: string)
    requires forall i :: 0 <= i < |ts| ==> ts[i].releaseDate == "" || ts[i].releaseDate == d
    ensures forall x :: x in NonEmptyDates(ts) ==> x == d
  {
    if |ts| > 0 {
      assert forall i :: 0 <= i < |ts[1..]| ==> ts[1..][i] == ts[i + 1];
      DatedAgree(ts[1..], d);
    }
  }

  /** A sequence whose every element is `d` and which holds `d` has `d` as its one
      distinct value and its first element. */
  lemma OnlyValue(s: seq<string>, d: string)
    requires d in s
    requires forall x :: x in s ==> x == d
    ensures |set x | x in s| == 1
    ensures s[0] == d
  {
    var vals := set x | x in s;
    assert vals == {d};
    assert s[0] in s;
  }

  /** When every dated track agrees on `d`, `d` is the one distinct non-empty date. */
  lemma OneDistinctDate(ts: seq<Track>, d: string)
    requires d != "" && d in Dates(ts)
    requires forall i :: 0 <= i < |ts| ==> ts[i].releaseDate == "" || ts[i].releaseDate == d
    ensures |set x | x in NonEmptyDates(ts)| == 1
    ensures NonEmptyDates(ts)[0] == d
  {
    DatedAgree(ts, d);
    assert d in NonEmptyDates(ts);
    OnlyValue(NonEmptyDates(ts), d);
  }

  /** Every dated track agrees on `d`: the tracks lacking a date, and only they,
      get `d`. A track whose write lands ends with `d`, any other keeps its date;
      once every write lands the whole group shares `d`. */
  lemma SingleDateFills(ts: seq<Track>, d: string, lands: Update -> bool)
    requires NoIdConflict(ts)
    requires d != "" && d in Dates(ts)
    requires forall i :: 0 <= i < |ts| ==> ts[i].releaseDate == "" || ts[i].releaseDate == d
    ensures Analyse(ts).cause == Date
    ensures forall u :: u in Analyse(ts).updates ==> u == SetDate(u.track, Some(d)) && u.track.releaseDate == ""
    ensures forall t :: t in ts && t.releaseDate == "" ==> SetDate(t, Some(d)) in Analyse(ts).updates
    ensures forall t :: t in ts ==>
      DateAfter(t, Analyse(ts).updates, lands) == if lands(SetDate(t, Some(d))) then d else t.releaseDate
    ensures (forall u :: u in Analyse(ts).updates ==> lands(u)) ==>
      forall t :: t in ts ==> DateAfter(t, Analyse(ts).updates, lands) == d
    ensures |Analyse(ts).updates| == Count(Dates(ts), "")
  {
    FallsToDates(ts);
    OneDistinctDate(ts, d);
    var us := SetDiffering(ts, d);
    assert DateRule(ts) == Analysis(Date, us);
    SetDifferingSize(ts, d);
    AllTwoValued(Dates(ts), d, "");
    SettleTo(ts, us, lands, Some(d));
  }

  lemma {:induction false} AllTwoValued(s: seq<string>, a: string, b: string)
    requires a != b
    requires forall i :: 0 <= i < |s| ==> s[i] == a || s[i] == b
    ensures Count(s, a) + Count(s, b) == |s|
  {
    if |s| > 0 {
      AllTwoValued(s[1..], a, b);
    }
  }

  /** A non-empty date held by strictly more than half of the group's tracks (the
      undated ones included in the total) is forced onto every track that differs
      from it. This holds whatever order `Counter` breaks ties in, because such a
      date is the unique most common one. */
  lemma MajorityForces(ts: seq<Track>, d: string, lands: Update -> bool)
    requires NoIdConflict(ts)
    requires d != "" && 2 * Count(Dates(ts), d) > |ts|
    ensures Analyse(ts).cause == Date
    ensures forall u :: u in Analyse(ts).updates ==> u == SetDate(u.track, Some(d)) && u.track.releaseDate != d
    ensures forall t :: t in ts && t.releaseDate != d ==> SetDate(t, Some(d)) in Analyse(ts).updates
    ensures forall t :: t in ts ==>
      DateAfter(t, Analyse(ts).updates, lands) == if lands(SetDate(t, Some(d))) then d else t.releaseDate
    ensures (forall u :: u in Analyse(ts).updates ==> lands(u)) ==>
      forall t :: t in ts ==> DateAfter(t, Analyse(ts).updates, lands) == d
    ensures |Analyse(ts).updates| == |ts| - Count(Dates(ts), d)
  {
    FallsToDates(ts);
    MajorityRule(ts, d);
    var us := SetDiffering(ts, d);
    SetDifferingSize(ts, d);
    SettleTo(ts, us, lands, Some(d));
  }

  /** A strict-majority date is the one the date rules force. */
  lemma MajorityRule(ts: seq<Track>, d: string)
    requires d != "" && 2 * Count(Dates(ts), d) > |ts|
    ensures DateRule(ts) == Analysis(Date, SetDiffering(ts, d))
  {
    var nonEmpty := NonEmptyDates(ts);
    NonEmptyDatesCount(ts, d);
    assert d in nonEmpty;
    if |set x | x in nonEmpty| == 1 {
      assert nonEmpty[0] in nonEmpty;
      assert nonEmpty[0] == d by {
        if nonEmpty[0] != d {
          PairInSet((set x | x in nonEmpty), nonEmpty[0], d);
        }
      }
    } else {
      MajorityIsMode(nonEmpty, d);
    }
  }

  /** Several different non-empty dates and none held by more than half of the
      tracks: exactly the dated tracks are cleared. A track whose write lands ends
      undated, any other keeps its date; once every write lands no date is left. */
  lemma NoConsensusClears(ts: seq<Track>, lands: Update -> bool)
    requires NoIdConflict(ts)
    requires TwoNonEmptyDates(ts)
    requires forall d :: d != "" ==> 2 * Count(Dates(ts), d) <= |ts|
    ensures Analyse(ts).cause == Date
    ensures forall u :: u in Analyse(ts).updates ==> u == SetDate(u.track, None) && u.track.releaseDate != ""
    ensures forall t :: t in ts && t.releaseDate != "" ==> SetDate(t, None) in Analyse(ts).updates
    ensures forall t :: t in ts ==>
      DateAfter(t, Analyse(ts).updates, lands) == if lands(SetDate(t, None)) then "" else t.releaseDate
    ensures (forall u :: u in Analyse(ts).updates ==> lands(u)) ==>
      forall t :: t in ts ==> DateAfter(t, Analyse(ts).updates, lands) == ""
    ensures |Analyse(ts).updates| == |ts| - Count(Dates(ts), "")
  {
    FallsToDates(ts);
    NoConsensusRule(ts);
    var us := ClearDated(ts);
    ClearDatedSize(ts);
    SettleTo(ts, us, lands, None);
  }

  lemma NoConsensusRule(ts: seq<Track>)
    requires TwoNonEmptyDates(ts)
    requires forall d :: d != "" ==> 2 * Count(Dates(ts), d) <= |ts|
    ensures DateRule(ts) == Analysis(Date, ClearDated(ts))
  {
    var nonEmpty := NonEmptyDates(ts);
    var i, j :| 0 <= i < |ts| && 0 <= j < |ts|
      && ts[i].releaseDate != "" && ts[j].releaseDate != "" && ts[i].releaseDate != ts[j].releaseDate;
    assert Dates(ts)[i] in nonEmpty && Dates(ts)[j] in nonEmpty;
    PairInSet((set x | x in nonEmpty), ts[i].releaseDate, ts[j].releaseDate);
    var m := Mode(nonEmpty);
    assert m != "" by {
      assert m in nonEmpty;
    }
    NonEmptyDatesCount(ts, m);
    assert 2 * Count(nonEmpty, m) <= |ts|;
    assert |nonEmpty| != 0 && |set x | x in nonEmpty| != 1;
  }
}
